=== FILE: README.md ===
# Overvoltage monitor: the voltage-reading pipeline

The repository holds two JavaFX desktop apps, `OvervoltageApp` and
`ArduinoVoltageMonitor`. Both read an Arduino's voltage readings from a
serial port, plot the last 100 of them, paint a status indicator and raise an
alert when the voltage crosses 4.0 V. This project models what they do with
the data once it has arrived, and leaves out the GUI and the serial plumbing.

- `JavaText` (java_text.dfy): the parts of `java.lang.String` the pipeline
  relies on: `trim()`, `indexOf`/`contains`, `split(" - ")` and
  `split("[^0-9.]")`, with Java's rules for empty pieces.
- `JavaNumbers` (java_numbers.dfy): the pattern `\d*\.?\d+` and its exact value,
  `Double.parseDouble` on decimal input read as an exact `real`, and
  `Integer.parseInt` with its 32-bit range.
- `VoltageSeries` (voltage_series.dfy): `updateUI`, identical in both apps.
  The `Display` class holds the chart's points, the `xSeriesData` counter and
  the indicator. Its method `UpdateUI` appends, evicts index 0 beyond 100
  points, paints the indicator and reports the alert. The list-based alert
  test is proved equal to a one-bit "was above" monitor.
- `Frames` (frames.dfy): the marker line and one step's result, shared by
  both read loops, and the [0, 5.5] range, which only `OvervoltageApp`'s raw
  scan and bare-number fallback check; `ArduinoVoltageMonitor` has no range
  check.
- `OvervoltageApp` (overvoltage_app.dfy): the raw-scan chunk decoder and the
  line-tagged parser, which tests the marker with `contains` and has a
  bare-number fallback. Its `ReadLoop` class runs the loop body over a
  sequence of passes. The module also holds the baud-rate field and the
  open-error message.
- `ArduinoMonitor` (arduino_monitor.dfy): the line parser with the exact
  `equals` marker test and no fallback, and its `ReadLoop`. Fed the same
  lines, its readings are proved to be a subsequence of `OvervoltageApp`'s.
- `Ports` (ports.dfy): the port selector's label `name - description` and
  the recovery of the name with `split(" - ")[0]`.

Voltages are exact reals, and 4.0 and 5.5 are exact constants. A failing
`parseDouble` or `parseInt` is `None`. Each read loop is specified by two
left folds over the passes: `ArmedAfter` gives the flag and `Readings` the
values handed to `updateUI`. `Run` is proved to leave the chart at
`Feed(old state, Readings(...))`, the indicator painted for the last of those
readings, and to return `SeriesAlerts` of the same readings.

Two behaviours follow the code. First, when the flag is armed and the line does
not parse, the flag stays armed: `OvervoltageApp` only logs the failure
(OvervoltageApp.java:388-390) and `ArduinoVoltageMonitor` ignores it in an
empty catch block (ArduinoVoltageMonitor.java:198-200). Neither disarms. Second, `OvervoltageApp` arms on any line that contains the marker
(OvervoltageApp.java:391). Only `ArduinoVoltageMonitor` requires the whole
line to equal it.

## Model

| member | source | states |
|---|---|---|
| JavaText.Trim | project-overvoltage/src/overvoltage-app/src/main/java/app/OvervoltageApp.java:379 | the result is the slice `s[a..b]` where everything before `a` and from `b` on is at or below U+0020, and the slice itself neither starts nor ends with such a character |
| JavaText.TrimUnchanged | project-overvoltage/src/overvoltage-app/src/main/java/app/OvervoltageApp.java:379 | a string with nothing to strip at either end is returned unchanged |
| JavaText.TrimIdempotent | project-overvoltage/src/overvoltage-app/src/main/java/app/OvervoltageApp.java:379 | trimming twice gives the same as trimming once |
| JavaText.IndexOf | project-overvoltage/src/overvoltage-app/src/main/java/app/OvervoltageApp.java:391 | the result is -1 or an occurrence, and no occurrence lies before it |
| JavaText.Contains | project-overvoltage/src/overvoltage-app/src/main/java/app/OvervoltageApp.java:391 | true exactly when the pattern occurs somewhere |
| JavaText.Pieces | project-overvoltage/src/overvoltage-app/src/main/java/app/OvervoltageApp.java:216 | at least one piece; the first is a prefix holding no separator; with no occurrence the pieces are `[s]`, otherwise there are at least two and the first ends at the first occurrence; no piece contains the separator |
| JavaText.PiecesJoin | project-overvoltage/src/overvoltage-app/src/main/java/app/OvervoltageApp.java:216 | joining the pieces with the separator gives the input back, so nothing is lost or reordered |
| JavaText.SplitLiteral | project-overvoltage/src/overvoltage-app/src/main/java/app/OvervoltageApp.java:216 | with no occurrence the split is `[s]`; otherwise it is a prefix of the pieces ending in a non-empty piece, and only empty pieces were dropped |
| JavaText.DropTrailingEmpty | project-overvoltage/src/overvoltage-app/src/main/java/app/OvervoltageApp.java:216 | a prefix of the pieces that ends in a non-empty piece, where only empty pieces were dropped |
| JavaText.DropTrailingEmptyKeepsHead | project-overvoltage/src/overvoltage-app/src/main/java/app/OvervoltageApp.java:216 | a non-empty first piece survives the dropping |
| JavaText.NumericPiecesAreNumeric | project-overvoltage/src/overvoltage-app/src/main/java/app/OvervoltageApp.java:356 | every piece between separators holds only digits and points |
| JavaText.SplitNonNumericIsNumeric | project-overvoltage/src/overvoltage-app/src/main/java/app/OvervoltageApp.java:356 | every token of `split("[^0-9.]")` holds only digits and points |
| JavaText.SplitNonNumeric | project-overvoltage/src/overvoltage-app/src/main/java/app/OvervoltageApp.java:356 | with no character outside `[0-9.]` the split is `[s]`; otherwise it ends in a non-empty token |
| JavaText.NumericPieces | project-overvoltage/src/overvoltage-app/src/main/java/app/OvervoltageApp.java:356 | the pieces of a chunk between single characters outside `[0-9.]`: at least one; `NumericPiecesAreNumeric` and `NumericPiecesCoverChunk` state what they are |
| JavaText.NumericPiecesCoverChunk | project-overvoltage/src/overvoltage-app/src/main/java/app/OvervoltageApp.java:356 | the pieces are one more than the separators, and putting each separator back between them gives the chunk back |
| JavaText.SplitNonNumericIsPrefix | project-overvoltage/src/overvoltage-app/src/main/java/app/OvervoltageApp.java:356 | the tokens are a prefix of all pieces, and only empty pieces are dropped after them |
| JavaNumbers.DecimalTokenShape | project-overvoltage/src/overvoltage-app/src/main/java/app/OvervoltageApp.java:358 | a token of `\d*\.?\d+` is digits, or digits, a point and at least one digit, with the matching value |
| JavaNumbers.DecimalTokenOfParts | project-overvoltage/src/overvoltage-app/src/main/java/app/OvervoltageApp.java:358 | conversely, digits, a point and non-empty digits form a token whose value is int + frac / 10^len |
| JavaNumbers.DecimalTokenOfDigits | project-overvoltage/src/overvoltage-app/src/main/java/app/OvervoltageApp.java:358 | a non-empty run of digits is a token worth its integer value |
| JavaNumbers.IsDecimalToken | project-overvoltage/src/overvoltage-app/src/main/java/app/OvervoltageApp.java:358 | a token is non-empty, ends in a digit and holds only digits and points |
| JavaNumbers.DecimalValue | project-overvoltage/src/overvoltage-app/src/main/java/app/OvervoltageApp.java:359 | a token's value is never negative |
| JavaNumbers.ParseDouble | project-overvoltage/src/overvoltage-app/src/main/java/app/OvervoltageApp.java:384 | a parse succeeds only on a non-empty string, and its value is non-negative unless the string starts with a minus |
| JavaNumbers.DecimalTokenParses | project-overvoltage/src/overvoltage-app/src/main/java/app/OvervoltageApp.java:358-359 | `parseDouble` accepts every token that matched, with the token's value, so the parse after the match never throws |
| JavaNumbers.ParseDoubleRejectsLeadingLetter | project-overvoltage/src/overvoltage-app/src/main/java/app/OvervoltageApp.java:384 | in the model's decimal grammar, a string starting with anything but a digit, a point, a sign or e/E (such as the marker) does not parse; Java's own `parseDouble` also accepts `NaN` and `Infinity` |
| JavaNumbers.ParseDoubleNegated | project-overvoltage/src/overvoltage-app/src/main/java/app/OvervoltageApp.java:384 | a leading minus negates the parsed value |
| JavaNumbers.ParseInt | project-overvoltage/src/overvoltage-app/src/main/java/app/OvervoltageApp.java:309 | a parsed value always lies in the 32-bit range |
| JavaNumbers.ParseIntOfSignedDigits | project-overvoltage/src/overvoltage-app/src/main/java/app/OvervoltageApp.java:309 | an optional sign and a non-empty run of digits parse to their signed value exactly when it fits in 32 bits, and fail otherwise |
| JavaNumbers.ParseIntOnlySignedDigits | project-overvoltage/src/overvoltage-app/src/main/java/app/OvervoltageApp.java:309 | conversely, every string that parses is an optional sign followed by a non-empty run of digits, worth the parsed value |
| JavaNumbers.NatToDigits | project-overvoltage/src/overvoltage-app/src/main/java/app/OvervoltageApp.java:309 | the decimal digits of n are non-empty, unsigned and worth n, with no leading zero except for 0 itself |
| JavaNumbers.ParseIntRoundTrip | project-overvoltage/src/overvoltage-app/src/main/java/app/OvervoltageApp.java:309 | `parseInt` of a 32-bit number written in decimal gives the number back |
| VoltageSeries.Push | project-overvoltage/src/overvoltage-app/src/main/java/app/OvervoltageApp.java:469-473 | x grows by one; below 100 points the new point is appended, at 100 the oldest is dropped first; well-formedness (at most 100 points, consecutive x) is kept |
| VoltageSeries.IndicatorFor | project-overvoltage/src/overvoltage-app/src/main/java/app/OvervoltageApp.java:477-487 | the indicator is RED exactly when the reading is above 4.0, GREEN otherwise, never the idle colour |
| VoltageSeries.AlertAfterPush | project-overvoltage/src/overvoltage-app/src/main/java/app/OvervoltageApp.java:477-484 | the alert test can only hold for a reading above 4.0 |
| VoltageSeries.Feed | project-overvoltage/src/overvoltage-app/src/main/java/app/OvervoltageApp.java:469-473 | x grows by the number of readings, and a well-formed series stays well formed |
| VoltageSeries.AlertIsCrossing | project-overvoltage/src/overvoltage-app/src/main/java/app/OvervoltageApp.java:477-484 | the list-based alert test holds exactly when v > 4.0 and the newest point before the push was not above 4.0, even when the push evicted a point |
| VoltageSeries.MonitorStep | project-overvoltage/src/overvoltage-app/src/main/java/app/OvervoltageApp.java:477-484 | the one-bit monitor alerts exactly on a rise above 4.0 and remembers whether v is above |
| VoltageSeries.SeriesAlerts | project-overvoltage/src/overvoltage-app/src/main/java/app/OvervoltageApp.java:477-484 | one alert flag per reading |
| VoltageSeries.MonitorAlerts | project-overvoltage/src/overvoltage-app/src/main/java/app/OvervoltageApp.java:477-484 | one monitor flag per reading |
| VoltageSeries.SeriesAlertsAreMonitorAlerts | project-overvoltage/src/overvoltage-app/src/main/java/app/OvervoltageApp.java:469-484 | over any stream the list-based alerts equal the one-bit monitor's, and the series' newest point is above 4.0 exactly when the monitor's bit is set |
| VoltageSeries.FeedAppend | project-overvoltage/src/overvoltage-app/src/main/java/app/OvervoltageApp.java:469-473 | feeding two streams in turn equals feeding their concatenation |
| VoltageSeries.SeriesAlertsAppend | project-overvoltage/src/overvoltage-app/src/main/java/app/OvervoltageApp.java:477-484 | the alerts over a concatenation are those of the first stream, then those of the second on the fed series |
| VoltageSeries.OneAlertPerRun | project-overvoltage/src/overvoltage-app/src/main/java/app/OvervoltageApp.java:477-484 | a run of readings above 4.0 alerts at most once, at its first reading, and not at all if already above; starting below, it does alert at the first reading |
| VoltageSeries.FirstMonitorAlert | project-overvoltage/src/overvoltage-app/src/main/java/app/OvervoltageApp.java:477-484 | the monitor's first flag over a stream is its step on the first reading |
| VoltageSeries.CrossingExample | project-overvoltage/src/overvoltage-app/src/main/java/app/OvervoltageApp.java:477-484 | the readings 3.0, 4.5, 4.8, 3.9, 4.2 alert at 4.5 and at 4.2 only |
| VoltageSeries.FeedKeepsLastReadings | project-overvoltage/src/overvoltage-app/src/main/java/app/OvervoltageApp.java:469-473 | after any stream into a well-formed series, the y values are the last 100 readings seen, in order |
| VoltageSeries.HundredAndFiveReadings | project-overvoltage/src/overvoltage-app/src/main/java/app/OvervoltageApp.java:469-473 | 105 readings into an empty chart leave readings 6 to 105 |
| VoltageSeries.IndicatorAfterAppend | project-overvoltage/src/overvoltage-app/src/main/java/app/OvervoltageApp.java:477-487 | painting for two streams in turn leaves the same indicator as painting for their concatenation |
| VoltageSeries.Display.constructor | project-overvoltage/src/overvoltage-app/src/main/java/app/OvervoltageApp.java:51 | an empty series, x counter 0 |
| VoltageSeries.Display.UpdateUI | project-overvoltage/src/overvoltage-app/src/main/java/app/OvervoltageApp.java:467-489 | the new state is the push of the reading; the indicator is RED exactly when v > 4.0, otherwise GREEN; the alert is raised exactly on a crossing |
| OvervoltageApp.FirstAccepted | project-overvoltage/src/overvoltage-app/src/main/java/app/OvervoltageApp.java:357-366 | the index of the leftmost token that matches and lies in [0, 5.5], every earlier token failing |
| OvervoltageApp.FirstReading | project-overvoltage/src/overvoltage-app/src/main/java/app/OvervoltageApp.java:357-366 | no reading exactly when no token is accepted; a reading always lies in [0, 5.5] |
| OvervoltageApp.RawScan | project-overvoltage/src/overvoltage-app/src/main/java/app/OvervoltageApp.java:356-366 | no reading exactly when no token of the split is accepted; a reading always lies in [0, 5.5] |
| OvervoltageApp.TokenReading | project-overvoltage/src/overvoltage-app/src/main/java/app/OvervoltageApp.java:358-360 | a token yields a reading exactly when it matches `\d*\.?\d+` and its value lies in [0, 5.5]; the reading is the token's value |
| OvervoltageApp.ScanChunk | project-overvoltage/src/overvoltage-app/src/main/java/app/OvervoltageApp.java:356-366 | the loop over the tokens with `break` returns the raw-scan reading, which lies in [0, 5.5] |
| OvervoltageApp.RawScanIsLeftmost | project-overvoltage/src/overvoltage-app/src/main/java/app/OvervoltageApp.java:356-366 | the reading is the value of the leftmost accepted token and every token before it is rejected |
| OvervoltageApp.FirstReadingIgnoresLaterTokens | project-overvoltage/src/overvoltage-app/src/main/java/app/OvervoltageApp.java:363 | tokens after the accepted one never change the reading |
| OvervoltageApp.RawScanFindsEmbeddedValue | project-overvoltage/src/overvoltage-app/src/main/java/app/OvervoltageApp.java:356-366 | `RawScan("V=3.3!")` is 3.3 |
| OvervoltageApp.MarkerArms | project-overvoltage/src/overvoltage-app/src/main/java/app/OvervoltageApp.java:391-392 | not armed, a trimmed line containing the marker arms the flag and yields nothing |
| OvervoltageApp.ArmedLine | project-overvoltage/src/overvoltage-app/src/main/java/app/OvervoltageApp.java:382-390 | armed, a line that parses yields its value and disarms; a line that does not parse yields nothing and stays armed |
| OvervoltageApp.ArmedTakesAnyNumber | project-overvoltage/src/overvoltage-app/src/main/java/app/OvervoltageApp.java:382-387 | armed, 9 is passed on although it is outside [0, 5.5] |
| OvervoltageApp.FallbackReading | project-overvoltage/src/overvoltage-app/src/main/java/app/OvervoltageApp.java:393-406 | not armed and without the marker, a reading comes exactly from a line that wholly matches `\d*\.?\d+` with a value in [0, 5.5]; the flag stays clear |
| OvervoltageApp.UnarmedReadingsInRange | project-overvoltage/src/overvoltage-app/src/main/java/app/OvervoltageApp.java:393-406 | readings taken while not armed lie in [0, 5.5] |
| OvervoltageApp.LineStep | project-overvoltage/src/overvoltage-app/src/main/java/app/OvervoltageApp.java:376-407 | a null line changes nothing; a reading always disarms; armed, the flag stays set exactly when no reading came; unarmed readings lie in [0, 5.5] |
| OvervoltageApp.PollStep | project-overvoltage/src/overvoltage-app/src/main/java/app/OvervoltageApp.java:345-412 | a quiet pass changes nothing; a raw chunk never touches the flag and yields only readings in [0, 5.5]; a line pass is the line step |
| OvervoltageApp.RawScanKeepsFlag | project-overvoltage/src/overvoltage-app/src/main/java/app/OvervoltageApp.java:345-373 | raw chunks and quiet passes never change the flag |
| OvervoltageApp.RawReadingsInRange | project-overvoltage/src/overvoltage-app/src/main/java/app/OvervoltageApp.java:345-373 | in raw mode every reading lies in [0, 5.5] |
| OvervoltageApp.TaggedExample | project-overvoltage/src/overvoltage-app/src/main/java/app/OvervoltageApp.java:376-407 | the marker line followed by the line "3.75" yields the single reading 3.75 |
| OvervoltageApp.FallbackExample | project-overvoltage/src/overvoltage-app/src/main/java/app/OvervoltageApp.java:393-406 | the line "4.20" alone yields 4.2 |
| OvervoltageApp.ParseLine | project-overvoltage/src/overvoltage-app/src/main/java/app/OvervoltageApp.java:376-407 | the line branch as written computes the line step |
| OvervoltageApp.ReadLoop.Pass | project-overvoltage/src/overvoltage-app/src/main/java/app/OvervoltageApp.java:345-412 | one pass moves the flag and yields the reading of the raw or line step |
| OvervoltageApp.ReadLoop.constructor | project-overvoltage/src/overvoltage-app/src/main/java/app/OvervoltageApp.java:340 | the loop starts with `readingVoltage` false, drawing on the given chart |
| OvervoltageApp.ReadLoop.Take | project-overvoltage/src/overvoltage-app/src/main/java/app/OvervoltageApp.java:345-412 | one pass moves the flag; its reading, if any, is pushed onto the chart, paints the indicator and reports its alert; with no reading chart and indicator are unchanged |
| OvervoltageApp.ReadLoop.Run | project-overvoltage/src/overvoltage-app/src/main/java/app/OvervoltageApp.java:343-425 | after any passes the flag is the fold of the steps, the chart is fed with exactly the readings in order, the indicator is painted for the last reading (unchanged if there was none), and the alerts are those of the list-based test |
| OvervoltageApp.BaudRate | project-overvoltage/src/overvoltage-app/src/main/java/app/OvervoltageApp.java:307-314 | the trimmed field parsed as an int when that succeeds, otherwise 9600 with the field reset to "9600"; in both cases the field then parses back to the rate |
| OvervoltageApp.BaudRateOfTypedNumber | project-overvoltage/src/overvoltage-app/src/main/java/app/OvervoltageApp.java:309 | a field holding any 32-bit number in decimal configures that number |
| OvervoltageApp.BaudRateFallback | project-overvoltage/src/overvoltage-app/src/main/java/app/OvervoltageApp.java:310-314 | every field whose trimmed text holds no digit, the empty field included, gives 9600 and resets the field to "9600" |
| OvervoltageApp.BaudRateFallbackExamples | project-overvoltage/src/overvoltage-app/src/main/java/app/OvervoltageApp.java:310-314 | the fields "" and "fast" give 9600 and "9600" |
| OvervoltageApp.DefaultRateParses | project-overvoltage/src/overvoltage-app/src/main/java/app/OvervoltageApp.java:312-313 | the text "9600" the field is reset to parses back as the default rate |
| OvervoltageApp.FailureOf | project-overvoltage/src/overvoltage-app/src/main/java/app/OvervoltageApp.java:453-457 | code 5 means in use, code 13 missing permission |
| OvervoltageApp.OpenErrorMessage | project-overvoltage/src/overvoltage-app/src/main/java/app/OvervoltageApp.java:452 | the message starts with the fixed prefix and the port name |
| OvervoltageApp.OpenErrorMessageNamesCause | project-overvoltage/src/overvoltage-app/src/main/java/app/OvervoltageApp.java:452-457 | two codes give the same message exactly when they have the same cause |
| Ports.PortName | project-overvoltage/src/overvoltage-app/src/main/java/app/OvervoltageApp.java:216 | the name is a prefix of the entry holding no " - "; with no " - " it is the whole entry, otherwise it ends exactly at the first " - "; it is missing (Java throws) exactly when the entry starts with " - " and every piece of the split is empty, so any entry not starting with " - " yields a name |
| Ports.NameMissingExactly | project-overvoltage/src/overvoltage-app/src/main/java/app/OvervoltageApp.java:216 | `split(" - ")` returns no pieces exactly when " - " occurs and every piece is empty, and then the entry starts with " - " |
| Ports.PortLabel | project-overvoltage/src/overvoltage-app/src/main/java/app/ArduinoVoltageMonitor.java:129 | the label is the system name, " - ", then the description, with the separator right after the name |
| Ports.PortLabelRoundTrip | project-overvoltage/src/overvoltage-app/src/main/java/app/ArduinoVoltageMonitor.java:151 | a non-empty name with no " - " in it or across its end comes back from its label |
| Ports.NameEndingInDashIsCut | project-overvoltage/src/overvoltage-app/src/main/java/app/OvervoltageApp.java:216 | the name "COM7 -" comes back as "COM7" |
| Ports.EmptyLabelThrows | project-overvoltage/src/overvoltage-app/src/main/java/app/OvervoltageApp.java:216 | the label " - " makes `split(" - ")[0]` throw |
| Ports.SelectPort | project-overvoltage/src/overvoltage-app/src/main/java/app/ArduinoVoltageMonitor.java:149-155 | a null selection is reported; otherwise the port name comes from the label |
| ArduinoMonitor.LineStep | project-overvoltage/src/overvoltage-app/src/main/java/app/ArduinoVoltageMonitor.java:190-204 | a null line changes nothing; not armed, no line yields a reading |
| ArduinoMonitor.OnlyTheMarkerArms | project-overvoltage/src/overvoltage-app/src/main/java/app/ArduinoVoltageMonitor.java:201-202 | not armed, a line arms the flag exactly when its trimmed text equals the marker, and yields nothing |
| ArduinoMonitor.ArmedAsInOvervoltageApp | project-overvoltage/src/overvoltage-app/src/main/java/app/ArduinoVoltageMonitor.java:193-200 | armed, the line step is the same as OvervoltageApp's |
| ArduinoMonitor.ContainingIsNotEnough | project-overvoltage/src/overvoltage-app/src/main/java/app/ArduinoVoltageMonitor.java:201-202 | the line "> Tensiunea de pe pin:" arms OvervoltageApp but not this loop |
| ArduinoMonitor.ReadingsNeedMarkers | project-overvoltage/src/overvoltage-app/src/main/java/app/ArduinoVoltageMonitor.java:193-203 | readings plus a still-armed flag never outnumber the marker lines seen, plus one if the loop started armed |
| ArduinoMonitor.ReadingsWithinOvervoltageApp | project-overvoltage/src/overvoltage-app/src/main/java/app/ArduinoVoltageMonitor.java:189-205 | on the same lines, this loop is armed only when OvervoltageApp's is, and its readings are a subsequence of OvervoltageApp's |
| ArduinoMonitor.MarkerIsNoNumber | project-overvoltage/src/overvoltage-app/src/main/java/app/ArduinoVoltageMonitor.java:195 | armed, the marker line does not parse and keeps OvervoltageApp's flag armed |
| ArduinoMonitor.ParseLine | project-overvoltage/src/overvoltage-app/src/main/java/app/ArduinoVoltageMonitor.java:191-204 | the line branch as written computes the line step |
| ArduinoMonitor.ReadLoop.constructor | project-overvoltage/src/overvoltage-app/src/main/java/app/ArduinoVoltageMonitor.java:187 | the loop starts with `readingVoltage` false, drawing on the given chart |
| ArduinoMonitor.ReadLoop.Take | project-overvoltage/src/overvoltage-app/src/main/java/app/ArduinoVoltageMonitor.java:190-204 | one line moves the flag; its reading, if any, is pushed onto the chart, paints the indicator and reports its alert; with no reading chart and indicator are unchanged |
| ArduinoMonitor.ReadLoop.Run | project-overvoltage/src/overvoltage-app/src/main/java/app/ArduinoVoltageMonitor.java:189-205 | after any lines the flag is the fold of the steps, the chart is fed with exactly the readings in order, the indicator is painted for the last reading (unchanged if there was none), and the alerts are those of the list-based test |

## Left out

- Serial I/O through jSerialComm is not modelled: listing, opening and closing ports, timeouts, `available`/`read`, `readLine`. A raw chunk or a line is an input string, `None` stands for a `null` line, and `Quiet` stands for a pass with nothing to read.
- Bytes to characters: `new String(buffer, 0, numBytes)` uses the platform charset, and a chunk holds at most 1024 bytes. The model takes the decoded chunk as given and does not bound its length.
- Threads and timing are not modelled: the executor, the `running` flag, `Thread.sleep` and `Platform.runLater`. Each reading is handed to `UpdateUI` immediately, in the order read.
- Leaving the loop on an `IOException`, an interrupt or `running` turning false: `Run` covers any finite prefix of passes.
- JavaFX widgets are not modelled: the voltage label's `%.2f` text, the log area, alert dialogs, colours beyond the indicator enum, and `System.gc()`.
- IEEE double rounding: values are exact reals, so `parseDouble` rounding and the `(double)` comparison at 4.0 are exact here.
- `parseDouble` also accepts `NaN`, `Infinity`, hexadecimal literals and characters trimmed inside it. The model accepts only `[+-]?(\d+\.?\d*|\.\d+)([eE][+-]?\d+)?[fFdD]?`.
- `Integer.parseInt` accepts non-ASCII Unicode digits, which the model rejects.
- VoltageSeries.Display.UpdateUI: does not model the 32-bit wrap-around of `xSeriesData++`. The counter is an unbounded int; wrap-around would need 2^31 readings.
- Port lookup after the name is taken (`getCommPorts`, `equals` on system names, `openPort`) is foreign-library work and is not modelled. So is the Arduino app's fixed 9600 baud and its fixed open-failure message.
- Port selection defaults in `updatePortList` (keeping the previous selection, or selecting the first port) are not modelled: they are widget state.

=== FILE: arduino_monitor.dfy ===
/**
 * The reading side of ArduinoVoltageMonitor: a line-only read loop whose
 * marker test is exact equality and which has no bare-number fallback. Its
 * `updateUI` is the one in `VoltageSeries`.
 */
module ArduinoMonitor {
  import opened Options
  import opened JavaText
  import opened JavaNumbers
  import opened Frames
  import opened VoltageSeries
  import OvervoltageApp

  /**
   * One pass of the loop: `null` changes nothing; armed, a line `parseDouble`
   * accepts is the reading and disarms, any other line keeps the flag armed;
   * not armed, only the exact marker arms, and nothing else yields a reading.
   */
  function LineStep(readingVoltage: bool, received: Option<string>): (r: StepResult)
    ensures received.None? ==> r == StepResult(readingVoltage, None)
    ensures !readingVoltage ==> r.reading.None?
  {
    match received
    case None => StepResult(readingVoltage, None)
    case Some(raw) =>
      var line := Trim(raw);
      if readingVoltage then
        match ParseDouble(line)
        case Some(v) => StepResult(false, Some(v))
        case None => StepResult(true, None)
      else if line == Marker then StepResult(true, None)
      else StepResult(false, None)
  }

  /** Not armed, a line arms the flag exactly when its trimmed text is the marker. */
  lemma OnlyTheMarkerArms(raw: string)
    ensures LineStep(false, Some(raw)).readingVoltage <==> Trim(raw) == Marker
    ensures LineStep(false, Some(raw)).reading == None
  {
  }

  /** Armed, this loop and OvervoltageApp's line branch do the same thing. */
  lemma ArmedAsInOvervoltageApp(received: Option<string>)
    ensures LineStep(true, received) == OvervoltageApp.LineStep(true, received)
  {
  }

  /** The proof of `ContainingIsNotEnough`, with the line as a parameter. */
  lemma PromptedMarkerHelper(line: string)
    requires line == "> " + Marker
    ensures LineStep(false, Some(line)) == StepResult(false, None)
    ensures OvervoltageApp.LineStep(false, Some(line)) == StepResult(true, None)
  {
    assert line[0] == '>' && line[|line| - 1] == ':';
    TrimUnchanged(line);
    assert OccursAt(line, Marker, 2) by {
      assert line[2..2 + |Marker|] == Marker;
    }
  }

  /**
   * A line that merely contains the marker: OvervoltageApp arms on it, this
   * loop ignores it.
   */
  lemma ContainingIsNotEnough()
    ensures LineStep(false, Some("> Tensiunea de pe pin:")) == StepResult(false, None)
    ensures OvervoltageApp.LineStep(false, Some("> Tensiunea de pe pin:")) == StepResult(true, None)
  {
    PromptedMarkerHelper("> Tensiunea de pe pin:");
  }

  /** `readingVoltage` after a sequence of lines. */
  function ArmedAfter(readingVoltage: bool, lines: seq<Option<string>>): bool
    decreases |lines|
  {
    if lines == [] then readingVoltage
    else LineStep(ArmedAfter(readingVoltage, lines[..|lines| - 1]), lines[|lines| - 1]).readingVoltage
  }

  /** The readings passed to `updateUI`, in order. */
  function Readings(readingVoltage: bool, lines: seq<Option<string>>): seq<real>
    decreases |lines|
  {
    if lines == [] then []
    else
      var prefix := lines[..|lines| - 1];
      Readings(readingVoltage, prefix) + AsSeq(LineStep(ArmedAfter(readingVoltage, prefix), lines[|lines| - 1]).reading)
  }

  /** One line's effect on the prefix folds. */
  lemma ReadingsOfNextLine(readingVoltage: bool, lines: seq<Option<string>>, i: nat)
    requires i < |lines|
    ensures ArmedAfter(readingVoltage, lines[..i + 1]) ==
      LineStep(ArmedAfter(readingVoltage, lines[..i]), lines[i]).readingVoltage
    ensures Readings(readingVoltage, lines[..i + 1]) ==
      Readings(readingVoltage, lines[..i]) + AsSeq(LineStep(ArmedAfter(readingVoltage, lines[..i]), lines[i]).reading)
  {
    assert lines[..i + 1][..i] == lines[..i];
  }

  /**
   * Every reading comes from a line read while armed, and readings and
   * marker lines alternate: between two readings the marker was seen again.
   * In particular the number of readings never exceeds the number of marker
   * lines seen (plus one when the loop starts armed).
   */
  lemma {:induction false} ReadingsNeedMarkers(readingVoltage: bool, lines: seq<Option<string>>)
    ensures |Readings(readingVoltage, lines)| + (if ArmedAfter(readingVoltage, lines) then 1 else 0)
      <= MarkerLines(lines) + (if readingVoltage then 1 else 0)
    decreases |lines|
  {
    if lines != [] {
      var prefix := lines[..|lines| - 1];
      ReadingsNeedMarkers(readingVoltage, prefix);
      var last := lines[|lines| - 1];
      assert MarkerLines(lines) == MarkerLines(prefix) + (if IsMarkerLine(last) then 1 else 0);
    }
  }

  predicate IsMarkerLine(received: Option<string>)
  {
    received.Some? && Trim(received.value) == Marker
  }

  /** How many of the lines are the marker. */
  function MarkerLines(lines: seq<Option<string>>): nat
    decreases |lines|
  {
    if lines == [] then 0
    else MarkerLines(lines[..|lines| - 1]) + (if IsMarkerLine(lines[|lines| - 1]) then 1 else 0)
  }

  // ---------------------------------------------------------------------
  // The two line parsers side by side

  /** `a` is a subsequence of `b`: matched greedily from the right. */
  predicate IsSubsequence(a: seq<real>, b: seq<real>)
    decreases |b|
  {
    if a == [] then true
    else if b == [] then false
    else if a[|a| - 1] == b[|b| - 1] then IsSubsequence(a[..|a| - 1], b[..|b| - 1])
    else IsSubsequence(a, b[..|b| - 1])
  }

  lemma {:induction false} SubDropLast(a: seq<real>, b: seq<real>)
    requires a != [] && IsSubsequence(a, b)
    ensures IsSubsequence(a[..|a| - 1], b)
    decreases |b|, 0
  {
    var a' := a[..|a| - 1];
    if a' != [] {
      var b' := b[..|b| - 1];
      if a[|a| - 1] == b[|b| - 1] {
        SubExtendRight(a', b', b[|b| - 1]);
        assert b' + [b[|b| - 1]] == b;
      } else {
        SubDropLast(a, b');
        SubExtendRight(a', b', b[|b| - 1]);
        assert b' + [b[|b| - 1]] == b;
      }
    }
  }

  lemma {:induction false} SubExtendRight(a: seq<real>, b: seq<real>, x: real)
    requires IsSubsequence(a, b)
    ensures IsSubsequence(a, b + [x])
    decreases |b|, 1
  {
    var b' := b + [x];
    assert b'[..|b'| - 1] == b;
    if a != [] && a[|a| - 1] == x {
      SubDropLast(a, b);
    }
  }

  /** The lines as the line-mode passes of OvervoltageApp's loop. */
  function LinePolls(lines: seq<Option<string>>): (polls: seq<OvervoltageApp.Poll>)
    ensures |polls| == |lines|
    ensures forall i | 0 <= i < |lines| :: polls[i] == OvervoltageApp.Line(lines[i])
  {
    seq(|lines|, i requires 0 <= i < |lines| => OvervoltageApp.Line(lines[i]))
  }

  /**
   * Fed the same lines, from states where this loop is armed only if
   * OvervoltageApp's is, this loop stays armed only when OvervoltageApp's
   * is, and its readings are a subsequence of OvervoltageApp's: the
   * containment test and the fallback only ever add readings.
   */
  lemma {:induction false} ReadingsWithinOvervoltageApp(armed: bool, ovArmed: bool, lines: seq<Option<string>>)
    requires armed ==> ovArmed
    ensures ArmedAfter(armed, lines) ==> OvervoltageApp.ArmedAfter(ovArmed, LinePolls(lines))
    ensures IsSubsequence(Readings(armed, lines), OvervoltageApp.Readings(ovArmed, LinePolls(lines)))
    decreases |lines|
  {
    if lines == [] {
      assert LinePolls(lines) == [];
    } else {
      var prefix, last := lines[..|lines| - 1], lines[|lines| - 1];
      var polls := LinePolls(lines);
      assert polls[..|polls| - 1] == LinePolls(prefix);
      ReadingsWithinOvervoltageApp(armed, ovArmed, prefix);
      StepWithinOvervoltageApp(ArmedAfter(armed, prefix), OvervoltageApp.ArmedAfter(ovArmed, LinePolls(prefix)), last,
        Readings(armed, prefix), OvervoltageApp.Readings(ovArmed, LinePolls(prefix)));
    }
  }

  /** One line keeps both halves of the relation between the two loops. */
  lemma StepWithinOvervoltageApp(armed: bool, ovArmed: bool, received: Option<string>, before: seq<real>, ovBefore: seq<real>)
    requires armed ==> ovArmed
    requires IsSubsequence(before, ovBefore)
    ensures LineStep(armed, received).readingVoltage ==> OvervoltageApp.LineStep(ovArmed, received).readingVoltage
    ensures IsSubsequence(before + AsSeq(LineStep(armed, received).reading),
                ovBefore + AsSeq(OvervoltageApp.LineStep(ovArmed, received).reading))
  {
    var step, ovStep := LineStep(armed, received), OvervoltageApp.LineStep(ovArmed, received);
    if armed {
      assert step == ovStep;
      if step.reading.Some? {
        var v := step.reading.value;
        assert (before + [v])[..|before|] == before;
        assert (ovBefore + [v])[..|ovBefore|] == ovBefore;
      } else {
        assert before + [] == before && ovBefore + [] == ovBefore;
      }
    } else {
      assert before + [] == before;
      if ovStep.reading.Some? {
        SubExtendRight(before, ovBefore, ovStep.reading.value);
      } else {
        assert ovBefore + [] == ovBefore;
      }
      if step.readingVoltage {
        if ovArmed {
          MarkerIsNoNumber(received.value);
        } else {
          MarkerLineArmsBoth(received.value);
        }
      }
    }
  }

  lemma MarkerIsNoNumber(raw: string)
    requires Trim(raw) == Marker
    ensures OvervoltageApp.LineStep(true, Some(raw)) == StepResult(true, None)
  {
    ParseDoubleRejectsLeadingLetter(Marker);
  }

  lemma MarkerLineArmsBoth(raw: string)
    requires Trim(raw) == Marker
    ensures OvervoltageApp.LineStep(false, Some(raw)) == StepResult(true, None)
  {
    assert OccursAt(Marker, Marker, 0);
  }

  // ---------------------------------------------------------------------
  // The read loop

  /** The line branch of the loop body, as the source writes it. */
  method ParseLine(readingVoltage: bool, received: Option<string>) returns (armed: bool, reading: Option<real>)
    ensures StepResult(armed, reading) == LineStep(readingVoltage, received)
  {
    armed, reading := readingVoltage, None;
    if received.Some? {
      var line := Trim(received.value);
      if readingVoltage {
        var parsed := ParseDouble(line);
        if parsed.Some? {
          armed := false;
          reading := parsed;
        }
      } else if line == Marker {
        armed := true;
      }
    }
  }

  /** The worker's state: the flag local to the read loop, and the chart it updates. */
  class ReadLoop {
    var readingVoltage: bool
    const display: Display

    ghost predicate Valid()
      reads this, display
    {
      display.Valid()
    }

    constructor (display: Display)
      requires display.Valid()
      ensures Valid() && this.display == display && !readingVoltage
    {
      this.display := display;
      readingVoltage := false;
    }

    /** One pass of the loop: the flag moves and a reading, if any, goes to `updateUI`. */
    method Take(received: Option<string>) returns (fired: seq<bool>)
      requires Valid()
      modifies this, display
      ensures Valid()
      ensures readingVoltage == LineStep(old(readingVoltage), received).readingVoltage
      ensures display.State() == Feed(old(display.State()), AsSeq(LineStep(old(readingVoltage), received).reading))
      ensures display.indicator == IndicatorAfter(old(display.indicator), AsSeq(LineStep(old(readingVoltage), received).reading))
      ensures fired == SeriesAlerts(old(display.State()), AsSeq(LineStep(old(readingVoltage), received).reading))
    {
      var reading;
      readingVoltage, reading := ParseLine(readingVoltage, received);
      fired := [];
      if reading.Some? {
        var alert := display.UpdateUI(reading.value);
        fired := [alert];
        assert [reading.value][..0] == [];
      }
    }

    /**
     * The loop body once per line read: each reading goes to `updateUI`, in
     * order, the indicator shows the last one, and the result lists whether
     * each reading raised the alert.
     */
    method Run(lines: seq<Option<string>>) returns (alerts: seq<bool>)
      requires Valid()
      modifies this, display
      ensures Valid()
      ensures readingVoltage == ArmedAfter(old(readingVoltage), lines)
      ensures display.State() == Feed(old(display.State()), Readings(old(readingVoltage), lines))
      ensures display.indicator == IndicatorAfter(old(display.indicator), Readings(old(readingVoltage), lines))
      ensures alerts == SeriesAlerts(old(display.State()), Readings(old(readingVoltage), lines))
    {
      ghost var armed0, series0, indicator0 := readingVoltage, display.State(), display.indicator;
      ghost var readings: seq<real> := [];
      alerts := [];
      var i := 0;
      assert lines[..0] == [];
      while i < |lines|
        invariant 0 <= i <= |lines|
        invariant display.Valid()
        invariant readingVoltage == ArmedAfter(armed0, lines[..i])
        invariant readings == Readings(armed0, lines[..i])
        invariant display.State() == Feed(series0, readings)
        invariant display.indicator == IndicatorAfter(indicator0, readings)
        invariant alerts == SeriesAlerts(series0, readings)
      {
        ghost var step := LineStep(readingVoltage, lines[i]);
        ReadingsOfNextLine(armed0, lines, i);
        FeedAppend(series0, readings, AsSeq(step.reading));
        SeriesAlertsAppend(series0, readings, AsSeq(step.reading));
        IndicatorAfterAppend(indicator0, readings, AsSeq(step.reading));
        var fired := Take(lines[i]);
        alerts := alerts + fired;
        readings := readings + AsSeq(step.reading);
        i := i + 1;
      }
      assert lines[..|lines|] == lines;
    }
  }
}

=== FILE: frames.dfy ===
/**
 * What both read loops share, the marker line and one step's outcome, and
 * the voltage range that only OvervoltageApp's raw scan and bare-number
 * fallback check.
 */
module Frames {
  import opened Options

  /** The line the Arduino sketch prints before each voltage. */
  const Marker: string := "Tensiunea de pe pin:"

  /** The range a bare number must fall in to be taken as a voltage. */
  predicate InDisplayRange(v: real) { 0.0 <= v <= 5.5 }

  /** The `readingVoltage` flag after one step, and the reading the step passes to `updateUI`, if any. */
  datatype StepResult = StepResult(readingVoltage: bool, reading: Option<real>)

  /** Zero or one readings as a sequence. */
  function AsSeq(o: Option<real>): (s: seq<real>)
    ensures o.None? ==> s == []
    ensures o.Some? ==> s == [o.value]
  {
    match o
    case None => []
    case Some(v) => [v]
  }
}

=== FILE: java_numbers.dfy ===
/**
 * The number syntax the pipeline accepts: the regular expression
 * `\d*\.?\d+` used by `String.matches`, the decimal part of
 * `Double.parseDouble`, and `Integer.parseInt`. Values are exact: a
 * `real` for a double, an unbounded `int` checked against the 32-bit range.
 */
module JavaNumbers {
  import opened Options

  /** `\d` in a Java regular expression: an ASCII digit. */
  predicate IsDigit(c: char) { '0' <= c <= '9' }

  predicate IsDigits(s: string) { forall i | 0 <= i < |s| :: IsDigit(s[i]) }

  /** The value of a string of decimal digits; the empty string is 0. */
  function DigitsValue(s: string): nat
    requires IsDigits(s)
    decreases |s|
  {
    if s == [] then 0 else 10 * DigitsValue(s[..|s| - 1]) + (s[|s| - 1] as int - '0' as int)
  }

  function Pow10(n: nat): (p: nat)
    ensures p >= 1
  {
    if n == 0 then 1 else 10 * Pow10(n - 1)
  }

  /** The index of the first '.' in `s`, or `|s|` when there is none. */
  function FirstPoint(s: string): (d: nat)
    ensures d <= |s|
    ensures d < |s| ==> s[d] == '.'
    ensures forall j | 0 <= j < d :: s[j] != '.'
  {
    if s == [] || s[0] == '.' then 0 else 1 + FirstPoint(s[1..])
  }

  /** `intPart.frac` read as an exact decimal fraction. */
  function FractionValue(intPart: string, frac: string): real
    requires IsDigits(intPart) && IsDigits(frac)
  {
    DigitsValue(intPart) as real + DigitsValue(frac) as real / Pow10(|frac|) as real
  }

  /** `s.matches("\\d*\\.?\\d+")`: digits, at most one point, and at least one digit after it. */
  predicate IsDecimalToken(s: string)
    ensures IsDecimalToken(s) ==> s != [] && IsDigit(s[|s| - 1])
    ensures IsDecimalToken(s) ==> forall i | 0 <= i < |s| :: IsDigit(s[i]) || s[i] == '.'
  {
    var d := FirstPoint(s);
    if d == |s| then |s| > 0 && IsDigits(s)
    else IsDigits(s[..d]) && d + 1 < |s| && IsDigits(s[d + 1..])
  }

  /** The exact value of a string matching `\d*\.?\d+`. */
  function DecimalValue(s: string): (v: real)
    requires IsDecimalToken(s)
    ensures v >= 0.0
  {
    var d := FirstPoint(s);
    if d == |s| then DigitsValue(s) as real else FractionValue(s[..d], s[d + 1..])
  }

  /** Every token of the pattern is a run of digits, or digits, a point and at least one digit. */
  lemma DecimalTokenShape(s: string) returns (intPart: string, frac: string)
    requires IsDecimalToken(s)
    ensures IsDigits(intPart) && IsDigits(frac)
    ensures (frac == [] && intPart == s && s != []) || (frac != [] && s == intPart + "." + frac)
    ensures DecimalValue(s) == FractionValue(intPart, frac)
  {
    var d := FirstPoint(s);
    if d == |s| {
      intPart, frac := s, [];
    } else {
      intPart, frac := s[..d], s[d + 1..];
      assert s == intPart + "." + frac;
    }
  }

  lemma FirstPointOfParts(a: string, b: string)
    requires IsDigits(a)
    ensures FirstPoint(a + "." + b) == |a|
  {
    var s := a + "." + b;
    var d := FirstPoint(s);
    assert s[|a|] == '.';
    assert forall j | 0 <= j < |a| :: s[j] == a[j];
  }

  /** Conversely, every such shape matches the pattern, with the expected value. */
  lemma DecimalTokenOfParts(a: string, b: string)
    requires IsDigits(a) && IsDigits(b) && b != []
    ensures IsDecimalToken(a + "." + b)
    ensures DecimalValue(a + "." + b) == FractionValue(a, b)
  {
    var s := a + "." + b;
    FirstPointOfParts(a, b);
    assert s[..|a|] == a;
    assert s[|a| + 1..] == b;
  }

  lemma DecimalTokenOfDigits(a: string)
    requires IsDigits(a) && a != []
    ensures IsDecimalToken(a) && DecimalValue(a) == DigitsValue(a) as real
  {
  }

  /** `parseDouble` accepts the suffixes f, F, d and D. */
  predicate IsTypeSuffix(c: char) { c == 'f' || c == 'F' || c == 'd' || c == 'D' }

  predicate IsExponentMark(c: char) { c == 'e' || c == 'E' }

  /** The index of the first exponent mark, or `|s|`. */
  function FirstExponentMark(s: string): (e: nat)
    ensures e <= |s|
    ensures e < |s| ==> IsExponentMark(s[e])
    ensures forall j | 0 <= j < e :: !IsExponentMark(s[j])
  {
    if s == [] || IsExponentMark(s[0]) then 0 else 1 + FirstExponentMark(s[1..])
  }

  /** The mantissa `\d+\.?\d*|\.\d+`. */
  function ParseMantissa(m: string): (r: Option<real>)
    ensures r.Some? ==> r.value >= 0.0
  {
    var d := FirstPoint(m);
    var intPart := m[..d];
    var frac := if d < |m| then m[d + 1..] else [];
    if IsDigits(intPart) && IsDigits(frac) && |intPart| + |frac| > 0
    then Some(FractionValue(intPart, frac))
    else None
  }

  /** The exponent `[+-]?\d+`. */
  function ParseExponent(t: string): Option<int>
  {
    var digits := if |t| > 0 && (t[0] == '+' || t[0] == '-') then t[1..] else t;
    if digits != [] && IsDigits(digits)
    then Some(if t[0] == '-' then -(DigitsValue(digits) as int) else DigitsValue(digits))
    else None
  }

  function Scale(m: real, e: int): (r: real)
    ensures m >= 0.0 ==> r >= 0.0
  {
    if e >= 0 then m * Pow10(e) as real else m / Pow10(-e) as real
  }

  function ParseUnsignedDouble(s: string): (r: Option<real>)
    ensures r.Some? ==> r.value >= 0.0
  {
    var body := if |s| > 0 && IsTypeSuffix(s[|s| - 1]) then s[..|s| - 1] else s;
    var e := FirstExponentMark(body);
    match ParseMantissa(body[..e])
    case None => None
    case Some(m) =>
      if e == |body| then Some(m)
      else match ParseExponent(body[e + 1..])
        case None => None
        case Some(x) => Some(Scale(m, x))
  }

  /**
   * `Double.parseDouble` on an already trimmed string, for decimal input:
   * `[+-]?(\d+\.?\d*|\.\d+)([eE][+-]?\d+)?[fFdD]?`, read exactly.
   * `None` stands for the NumberFormatException.
   */
  function ParseDouble(s: string): (r: Option<real>)
    ensures r.Some? ==> s != []
    ensures r.Some? && s[0] != '-' ==> r.value >= 0.0
  {
    if |s| > 0 && (s[0] == '+' || s[0] == '-') then
      match ParseUnsignedDouble(s[1..])
      case None => None
      case Some(v) => Some(if s[0] == '-' then -v else v)
    else ParseUnsignedDouble(s)
  }

  lemma NoExponentMarkInDigits(s: string)
    requires forall i | 0 <= i < |s| :: IsDigit(s[i]) || s[i] == '.'
    ensures FirstExponentMark(s) == |s|
  {
  }

  /** A token of `\d*\.?\d+` is made of digits and points only. */
  lemma DecimalTokenChars(s: string)
    requires IsDecimalToken(s)
    ensures s != [] && forall i | 0 <= i < |s| :: IsDigit(s[i]) || s[i] == '.'
  {
    var d := FirstPoint(s);
    forall i | 0 <= i < |s| ensures IsDigit(s[i]) || s[i] == '.' {
      if i < d {
        assert s[..d][i] == s[i];
      } else if i > d {
        assert s[d + 1..][i - d - 1] == s[i];
      }
    }
  }

  /** The mantissa reading of a token is the token's value. */
  lemma DecimalTokenMantissa(s: string)
    requires IsDecimalToken(s)
    ensures ParseMantissa(s) == Some(DecimalValue(s))
  {
    if FirstPoint(s) == |s| {
      assert s[..|s|] == s;
    }
  }

  /**
   * Whatever `\d*\.?\d+` accepts, `parseDouble` accepts too, with the value
   * the token denotes; so the source's parse after a successful `matches`
   * never throws.
   */
  lemma DecimalTokenParses(s: string)
    requires IsDecimalToken(s)
    ensures ParseDouble(s) == Some(DecimalValue(s))
  {
    DecimalTokenChars(s);
    NoExponentMarkInDigits(s);
    DecimalTokenMantissa(s);
    assert s[0] != '+' && s[0] != '-' && !IsTypeSuffix(s[|s| - 1]);
    assert s[..|s|] == s;
  }

  lemma MantissaRejectsLeadingLetter(m: string)
    requires m != [] && !IsDigit(m[0]) && m[0] != '.'
    ensures ParseMantissa(m) == None
  {
    var d := FirstPoint(m);
    assert d > 0 && m[..d][0] == m[0];
  }

  /** A string that starts with neither a sign, a digit, a point nor an exponent mark is no number. */
  lemma ParseDoubleRejectsLeadingLetter(s: string)
    requires s != [] && !IsDigit(s[0]) && s[0] != '.' && s[0] != '+' && s[0] != '-' && !IsExponentMark(s[0])
    ensures ParseDouble(s) == None
  {
    assert ParseDouble(s) == ParseUnsignedDouble(s);
    var body := if IsTypeSuffix(s[|s| - 1]) then s[..|s| - 1] else s;
    var e := FirstExponentMark(body);
    if body == [] {
      assert ParseMantissa(body[..e]) == None;
    } else {
      assert body[0] == s[0];
      var m := body[..e];
      assert m != [] && m[0] == s[0];
      MantissaRejectsLeadingLetter(m);
    }
  }

  /** A negative sign negates the value. */
  lemma ParseDoubleNegated(t: string)
    requires ParseUnsignedDouble(t).Some?
    ensures ParseDouble("-" + t) == Some(-ParseUnsignedDouble(t).value)
  {
    var s := "-" + t;
    assert s[0] == '-' && s[1..] == t;
  }

  const IntMin: int := -0x8000_0000
  const IntMax: int := 0x7FFF_FFFF

  /**
   * `Integer.parseInt`: an optional sign and at least one digit, the value
   * within the 32-bit range. `None` stands for the NumberFormatException.
   */
  function ParseInt(s: string): (r: Option<int>)
    ensures r.Some? ==> IntMin <= r.value <= IntMax
  {
    var digits := if |s| > 0 && (s[0] == '+' || s[0] == '-') then s[1..] else s;
    if digits == [] || !IsDigits(digits) then None
    else
      var v := if s[0] == '-' then -(DigitsValue(digits) as int) else DigitsValue(digits);
      if IntMin <= v <= IntMax then Some(v) else None
  }

  /** An optional sign and a non-empty run of digits parse to their signed value when it fits in 32 bits. */
  lemma ParseIntOfSignedDigits(sign: string, digits: string)
    requires sign == [] || sign == ['+'] || sign == ['-']
    requires digits != [] && IsDigits(digits)
    ensures var v := if sign == ['-'] then -(DigitsValue(digits) as int) else DigitsValue(digits) as int;
      ParseInt(sign + digits) == if IntMin <= v <= IntMax then Some(v) else None
  {
    var s := sign + digits;
    if sign == [] {
      assert s == digits;
    } else {
      assert s[1..] == digits;
    }
  }

  /** Conversely, whatever `parseInt` accepts is an optional sign followed by a non-empty run of digits. */
  lemma ParseIntOnlySignedDigits(s: string)
    requires ParseInt(s).Some?
    ensures s != []
    ensures var k := if s[0] == '+' || s[0] == '-' then 1 else 0;
      && k < |s| && IsDigits(s[k..])
      && ParseInt(s).value == (if s[0] == '-' then -(DigitsValue(s[k..]) as int) else DigitsValue(s[k..]) as int)
  {
    assert s[0..] == s;
  }

  /** The shortest decimal spelling of `n`, as `Integer.toString` writes it. */
  function NatToDigits(n: nat): (s: string)
    ensures s != [] && IsDigits(s) && DigitsValue(s) == n
    ensures s[0] != '+' && s[0] != '-'
    ensures s[0] == '0' ==> n == 0 && |s| == 1
  {
    var last := ['0' + (n % 10) as char];
    if n < 10 then last
    else
      var s := NatToDigits(n / 10) + last;
      assert s[..|s| - 1] == NatToDigits(n / 10);
      s
  }

  function IntToString(n: int): string
  {
    if n < 0 then "-" + NatToDigits(-n) else NatToDigits(n)
  }

  /** `Integer.parseInt(Integer.toString(n)) == n` for every 32-bit `n`. */
  lemma ParseIntRoundTrip(n: int)
    requires IntMin <= n <= IntMax
    ensures ParseInt(IntToString(n)) == Some(n)
  {
    if n < 0 {
      assert ("-" + NatToDigits(-n))[1..] == NatToDigits(-n);
    }
  }
}

=== FILE: java_text.dfy ===
/**
 * The pieces of java.lang.String that the voltage pipeline relies on:
 * `trim()`, `contains(...)` and `split(...)` with Java's rules for empty
 * pieces. A Dafny `char` is a Unicode scalar value, so a supplementary
 * character is one `char` here, as Java's regular-expression split sees it,
 * and lone surrogates are not represented.
 */
module JavaText {

  /** `trim()` removes every character whose code is at most U+0020. */
  predicate IsTrimSpace(c: char) { c <= ' ' }

  /** The bounds `[a, b)` that `trim()` keeps. */
  function TrimBounds(s: string): (ab: (nat, nat))
    ensures ab.0 <= ab.1 <= |s|
    ensures forall i | 0 <= i < ab.0 :: IsTrimSpace(s[i])
    ensures forall i | ab.1 <= i < |s| :: IsTrimSpace(s[i])
    ensures ab.0 < ab.1 ==> !IsTrimSpace(s[ab.0]) && !IsTrimSpace(s[ab.1 - 1])
    ensures ab.0 == ab.1 ==> forall i | 0 <= i < |s| :: IsTrimSpace(s[i])
  {
    var a := SkipLeading(s, 0);
    var b := SkipTrailing(s, a, |s|);
    (a, b)
  }

  function SkipLeading(s: string, i: nat): (a: nat)
    requires i <= |s|
    requires forall k | 0 <= k < i :: IsTrimSpace(s[k])
    ensures i <= a <= |s|
    ensures forall k | 0 <= k < a :: IsTrimSpace(s[k])
    ensures a < |s| ==> !IsTrimSpace(s[a])
    decreases |s| - i
  {
    if i == |s| || !IsTrimSpace(s[i]) then i else SkipLeading(s, i + 1)
  }

  function SkipTrailing(s: string, a: nat, j: nat): (b: nat)
    requires a <= j <= |s|
    requires forall k | j <= k < |s| :: IsTrimSpace(s[k])
    requires a < |s| ==> !IsTrimSpace(s[a])
    ensures a <= b <= j
    ensures forall k | b <= k < |s| :: IsTrimSpace(s[k])
    ensures a < b ==> !IsTrimSpace(s[b - 1])
    ensures a == b ==> a == |s| || j == a
    decreases j
  {
    if j == a || !IsTrimSpace(s[j - 1]) then j else SkipTrailing(s, a, j - 1)
  }

  /** Java's `String.trim()`. */
  function Trim(s: string): (t: string)
    ensures |t| <= |s|
    ensures t != [] ==> !IsTrimSpace(t[0]) && !IsTrimSpace(t[|t| - 1])
    ensures exists a, b | 0 <= a <= b <= |s| ::
      && t == s[a..b]
      && (forall i | 0 <= i < a :: IsTrimSpace(s[i]))
      && (forall i | b <= i < |s| :: IsTrimSpace(s[i]))
  {
    var ab := TrimBounds(s);
    var t := s[ab.0..ab.1];
    assert t == s[ab.0..ab.1];
    t
  }

  /** A string with nothing to strip at either end is its own trim. */
  lemma TrimUnchanged(s: string)
    requires s == [] || (!IsTrimSpace(s[0]) && !IsTrimSpace(s[|s| - 1]))
    ensures Trim(s) == s
  {
    var ab := TrimBounds(s);
    if s != [] {
      assert ab.0 == 0;
      assert ab.1 == |s|;
    }
  }

  /** Trimming twice is trimming once. */
  lemma TrimIdempotent(s: string)
    ensures Trim(Trim(s)) == Trim(s)
  {
    var t := Trim(s);
    var ab := TrimBounds(t);
    if t != [] {
      assert ab.0 == 0;
      assert ab.1 == |t|;
    }
  }

  /** `pat` occurs in `s` starting at index `j`. */
  predicate OccursAt(s: string, pat: string, j: int)
  {
    0 <= j && j + |pat| <= |s| && s[j..j + |pat|] == pat
  }

  /** `s.indexOf(pat, k)`: the first occurrence at or after `k`, or -1. */
  function IndexFrom(s: string, pat: string, k: nat): (i: int)
    ensures i == -1 || (k <= i && OccursAt(s, pat, i))
    ensures forall j | k <= j && (i == -1 || j < i) :: !OccursAt(s, pat, j)
    decreases |s| - k
  {
    if k + |pat| > |s| then -1
    else if OccursAt(s, pat, k) then k
    else IndexFrom(s, pat, k + 1)
  }

  /** `s.indexOf(pat)`. */
  function IndexOf(s: string, pat: string): (i: int)
    ensures i == -1 || OccursAt(s, pat, i)
    ensures forall j | 0 <= j && (i == -1 || j < i) :: !OccursAt(s, pat, j)
  {
    IndexFrom(s, pat, 0)
  }

  /** `s.contains(pat)`: some occurrence exists. */
  function Contains(s: string, pat: string): (b: bool)
    ensures b <==> exists j :: OccursAt(s, pat, j)
  {
    IndexOf(s, pat) >= 0
  }

  /**
   * The pieces between the leftmost non-overlapping occurrences of `sep`,
   * empty pieces included (the first step of `String.split`).
   */
  function Pieces(s: string, sep: string): (ps: seq<string>)
    requires |sep| > 0
    ensures |ps| >= 1
    ensures |ps[0]| <= |s| && ps[0] == s[..|ps[0]|]
    ensures forall j :: !OccursAt(ps[0], sep, j)
    ensures IndexOf(s, sep) < 0 ==> ps == [s]
    ensures IndexOf(s, sep) >= 0 ==> |ps[0]| == IndexOf(s, sep) && |ps| >= 2
    ensures forall k | 0 <= k < |ps| :: !Contains(ps[k], sep)
    decreases |s|
  {
    var i := IndexOf(s, sep);
    if i < 0 then [s]
    else
      PrefixBeforeFirstOccurrence(s, sep, i);
      var rest := Pieces(s[i + |sep|..], sep);
      assert !Contains(s[..i], sep);
      [s[..i]] + rest
  }

  /** The pieces glued back together with `sep` between them. */
  function Join(ps: seq<string>, sep: string): string
    requires |ps| >= 1
  {
    if |ps| == 1 then ps[0] else ps[0] + sep + Join(ps[1..], sep)
  }

  /** Nothing is lost: joining the pieces with the separator gives the string back. */
  lemma {:induction false} PiecesJoin(s: string, sep: string)
    requires |sep| > 0
    ensures Join(Pieces(s, sep), sep) == s
    decreases |s|
  {
    var i := IndexOf(s, sep);
    if i >= 0 {
      var rest := s[i + |sep|..];
      PiecesJoin(rest, sep);
      var ps := Pieces(s, sep);
      assert ps[1..] == Pieces(rest, sep);
      assert s == s[..i] + sep + rest;
    }
  }

  lemma PrefixBeforeFirstOccurrence(s: string, pat: string, i: nat)
    requires i <= |s| && |pat| > 0
    requires forall j | 0 <= j < i :: !OccursAt(s, pat, j)
    ensures forall j :: !OccursAt(s[..i], pat, j)
  {
    forall j | OccursAt(s[..i], pat, j) ensures false {
      assert s[..i][j..j + |pat|] == s[j..j + |pat|];
      assert OccursAt(s, pat, j);
    }
  }

  /** `split` with limit 0 drops every empty piece at the end. */
  function DropTrailingEmpty(ps: seq<string>): (r: seq<string>)
    ensures |r| <= |ps| && r == ps[..|r|]
    ensures r == [] || r[|r| - 1] != []
    ensures forall k | |r| <= k < |ps| :: ps[k] == []
  {
    if ps == [] || ps[|ps| - 1] != [] then ps else DropTrailingEmpty(ps[..|ps| - 1])
  }

  /** Dropping trailing empties never touches a non-empty first piece. */
  lemma DropTrailingEmptyKeepsHead(ps: seq<string>)
    requires |ps| > 0 && ps[0] != []
    ensures |DropTrailingEmpty(ps)| > 0 && DropTrailingEmpty(ps)[0] == ps[0]
  {
  }

  /**
   * `s.split(sep)` for a separator pattern that matches exactly the literal
   * `sep`: with no occurrence the answer is `[s]`, otherwise the pieces
   * without the trailing empty ones.
   */
  function SplitLiteral(s: string, sep: string): (ps: seq<string>)
    requires |sep| > 0
    ensures IndexOf(s, sep) < 0 ==> ps == [s]
    ensures IndexOf(s, sep) >= 0 ==> ps == [] || ps[|ps| - 1] != []
    ensures IndexOf(s, sep) >= 0 ==>
      && |ps| <= |Pieces(s, sep)|
      && ps == Pieces(s, sep)[..|ps|]
      && forall k | |ps| <= k < |Pieces(s, sep)| :: Pieces(s, sep)[k] == []
  {
    if IndexOf(s, sep) < 0 then [s] else DropTrailingEmpty(Pieces(s, sep))
  }

  /** A character that the class `[0-9.]` accepts. */
  predicate IsNumericChar(c: char) { ('0' <= c <= '9') || c == '.' }

  /** The first index at or after `k` whose character is outside `[0-9.]`, or `|s|`. */
  function NextSeparator(s: string, k: nat): (i: nat)
    requires k <= |s|
    ensures k <= i <= |s|
    ensures i < |s| ==> !IsNumericChar(s[i])
    ensures forall j | k <= j < i :: IsNumericChar(s[j])
    decreases |s| - k
  {
    if k == |s| || !IsNumericChar(s[k]) then k else NextSeparator(s, k + 1)
  }

  /** The pieces of `s` between single characters outside `[0-9.]`. */
  function NumericPieces(s: string): (ps: seq<string>)
    ensures |ps| >= 1
    decreases |s|
  {
    var i := NextSeparator(s, 0);
    if i == |s| then [s] else [s[..i]] + NumericPieces(s[i + 1..])
  }

  /** `s.split("[^0-9.]")`. */
  function SplitNonNumeric(s: string): (ps: seq<string>)
    ensures NextSeparator(s, 0) == |s| ==> ps == [s]
    ensures NextSeparator(s, 0) < |s| ==> ps == [] || ps[|ps| - 1] != []
  {
    if NextSeparator(s, 0) == |s| then [s] else DropTrailingEmpty(NumericPieces(s))
  }

  /** Every piece of the split consists of digits and points only. */
  lemma {:induction false} NumericPiecesAreNumeric(s: string)
    ensures forall p, j | p in NumericPieces(s) && 0 <= j < |p| :: IsNumericChar(p[j])
    decreases |s|
  {
    var i := NextSeparator(s, 0);
    if i < |s| {
      NumericPiecesAreNumeric(s[i + 1..]);
    }
  }

  /** The characters outside `[0-9.]` that the split cuts at, in order. */
  function Separators(s: string): (seps: string)
    ensures forall k | 0 <= k < |seps| :: !IsNumericChar(seps[k])
    decreases |s|
  {
    var i := NextSeparator(s, 0);
    if i == |s| then [] else [s[i]] + Separators(s[i + 1..])
  }

  /** The pieces with the separator characters put back between them. */
  function Interleave(ps: seq<string>, seps: string): string
    requires |ps| == |seps| + 1
  {
    if seps == [] then ps[0] else ps[0] + [seps[0]] + Interleave(ps[1..], seps[1..])
  }

  /**
   * The pieces are the maximal runs of `[0-9.]`, in order, and nothing is
   * lost: one more piece than separators, and putting the separators back
   * between the pieces gives the chunk.
   */
  lemma {:induction false} NumericPiecesCoverChunk(s: string)
    ensures |NumericPieces(s)| == |Separators(s)| + 1
    ensures Interleave(NumericPieces(s), Separators(s)) == s
    decreases |s|
  {
    var i := NextSeparator(s, 0);
    if i < |s| {
      var rest := s[i + 1..];
      NumericPiecesCoverChunk(rest);
      var ps, seps := NumericPieces(s), Separators(s);
      assert ps == [s[..i]] + NumericPieces(rest);
      assert seps == [s[i]] + Separators(rest);
      assert ps[1..] == NumericPieces(rest) && seps[1..] == Separators(rest);
      calc {
        Interleave(ps, seps);
        ps[0] + [seps[0]] + Interleave(ps[1..], seps[1..]);
        s[..i] + [s[i]] + rest;
        { assert s == s[..i] + [s[i]] + rest; }
        s;
      }
    }
  }

  /** `split("[^0-9.]")` keeps the pieces in order and drops only empty ones at the end. */
  lemma SplitNonNumericIsPrefix(s: string)
    ensures |SplitNonNumeric(s)| <= |NumericPieces(s)|
    ensures SplitNonNumeric(s) == NumericPieces(s)[..|SplitNonNumeric(s)|]
    ensures forall k | |SplitNonNumeric(s)| <= k < |NumericPieces(s)| :: NumericPieces(s)[k] == []
  {
    if NextSeparator(s, 0) == |s| {
      assert NumericPieces(s) == [s];
    }
  }

  lemma SplitNonNumericIsNumeric(s: string)
    ensures forall p, j | p in SplitNonNumeric(s) && 0 <= j < |p| :: IsNumericChar(p[j])
  {
    NumericPiecesAreNumeric(s);
    var ps := NumericPieces(s);
    var r := DropTrailingEmpty(ps);
    forall p | p in r ensures p in ps {
      var k :| 0 <= k < |r| && r[k] == p;
      assert ps[k] == p;
    }
  }
}

=== FILE: options.dfy ===
/** A value that may be absent: Java's `null` results and caught exceptions. */
module Options {
  datatype Option<+T> = None | Some(value: T)
}

=== FILE: overvoltage_app.dfy ===
/**
 * The reading side of OvervoltageApp: the raw-scan chunk decoder, the
 * line-tagged parser with its marker test by containment and its bare-number
 * fallback, the read loop that feeds `updateUI`, the baud-rate field, and the
 * message shown when a port cannot be opened.
 */
module OvervoltageApp {
  import opened Options
  import opened JavaText
  import opened JavaNumbers
  import opened Frames
  import opened VoltageSeries

  // ---------------------------------------------------------------------
  // Raw scan

  /** A token yields a reading: it matches `\d*\.?\d+` and its value lies in [0, 5.5]. */
  predicate Accepts(token: string)
  {
    IsDecimalToken(token) && InDisplayRange(DecimalValue(token))
  }

  /** The index of the leftmost accepted token, or `|tokens|` when none is. */
  function FirstAccepted(tokens: seq<string>): (k: nat)
    ensures k <= |tokens|
    ensures k < |tokens| ==> Accepts(tokens[k])
    ensures forall j | 0 <= j < k :: !Accepts(tokens[j])
  {
    if tokens == [] || Accepts(tokens[0]) then 0 else 1 + FirstAccepted(tokens[1..])
  }

  /** The reading a list of tokens yields: the value of the leftmost accepted token. */
  function FirstReading(tokens: seq<string>): (r: Option<real>)
    ensures r.None? <==> forall j | 0 <= j < |tokens| :: !Accepts(tokens[j])
    ensures r.Some? ==> InDisplayRange(r.value)
  {
    var k := FirstAccepted(tokens);
    if k < |tokens| then Some(DecimalValue(tokens[k])) else None
  }

  /** The reading a raw chunk yields. */
  function RawScan(data: string): (r: Option<real>)
    ensures r.None? <==> forall j | 0 <= j < |SplitNonNumeric(data)| :: !Accepts(SplitNonNumeric(data)[j])
    ensures r.Some? ==> InDisplayRange(r.value)
  {
    FirstReading(SplitNonNumeric(data))
  }

  /**
   * The test applied to each token: `matches("\\d*\\.?\\d+")`, then
   * `parseDouble` and the range check.
   */
  method TokenReading(token: string) returns (reading: Option<real>)
    ensures reading.Some? <==> Accepts(token)
    ensures reading.Some? ==> reading.value == DecimalValue(token)
  {
    reading := None;
    if IsDecimalToken(token) {
      DecimalTokenParses(token);
      var voltage := ParseDouble(token).value;
      if voltage >= 0.0 && voltage <= 5.5 {
        reading := Some(voltage);
      }
    }
  }

  /**
   * The loop over `data.split("[^0-9.]")` that stops at the first token in
   * range: the leftmost token that matches and lies in [0, 5.5] is the one
   * reported, and nothing is reported when no token does.
   */
  method ScanChunk(data: string) returns (reading: Option<real>)
    ensures reading == RawScan(data)
    ensures reading.Some? ==> InDisplayRange(reading.value)
  {
    var tokens := SplitNonNumeric(data);
    reading := None;
    var i := 0;
    while i < |tokens|
      invariant 0 <= i <= |tokens|
      invariant reading == None
      invariant forall j | 0 <= j < i :: !Accepts(tokens[j])
    {
      reading := TokenReading(tokens[i]);
      if reading.Some? {
        FirstAcceptedAt(tokens, i);
        return;
      }
      i := i + 1;
    }
    NoneAccepted(tokens);
  }

  lemma NoneAccepted(tokens: seq<string>)
    requires forall j | 0 <= j < |tokens| :: !Accepts(tokens[j])
    ensures FirstReading(tokens) == None
  {
  }

  /** A token accepted after only rejected ones is the leftmost accepted one. */
  lemma FirstAcceptedAt(tokens: seq<string>, i: nat)
    requires i < |tokens| && Accepts(tokens[i])
    requires forall j | 0 <= j < i :: !Accepts(tokens[j])
    ensures FirstReading(tokens) == Some(DecimalValue(tokens[i]))
  {
    assert FirstAccepted(tokens) == i;
  }

  /**
   * The reading a chunk yields is the value of its leftmost token that
   * matches and lies in range; every token before it fails the test.
   */
  lemma RawScanIsLeftmost(data: string)
    requires RawScan(data).Some?
    ensures exists i | 0 <= i < |SplitNonNumeric(data)| ::
      && Accepts(SplitNonNumeric(data)[i])
      && RawScan(data).value == DecimalValue(SplitNonNumeric(data)[i])
      && forall j | 0 <= j < i :: !Accepts(SplitNonNumeric(data)[j])
  {
    var k := FirstAccepted(SplitNonNumeric(data));
    assert Accepts(SplitNonNumeric(data)[k]);
  }

  /** Tokens after the first accepted one are never looked at: appending any do not change the reading. */
  lemma FirstReadingIgnoresLaterTokens(tokens: seq<string>, rest: seq<string>)
    requires FirstReading(tokens).Some?
    ensures FirstReading(tokens + rest) == FirstReading(tokens)
  {
    var k := FirstAccepted(tokens);
    var all := tokens + rest;
    assert all[k] == tokens[k];
    assert forall j | 0 <= j < k :: all[j] == tokens[j];
    assert FirstAccepted(all) == k;
  }

  /** The proof of `RawScanFindsEmbeddedValue`, with the chunk as a parameter so the literal is unfolded only once. */
  lemma EmbeddedValueHelper(data: string)
    requires data == "V=3.3!"
    ensures RawScan(data) == Some(3.3)
  {
    var tokens := SplitNonNumeric(data);
    SplitOfEmbeddedValue(data);
    AcceptsThreePointThree(tokens[2]);
    assert !Accepts(tokens[0]) && !Accepts(tokens[1]);
    assert FirstAccepted(tokens) == 2;
  }

  /** The chunk "V=3.3!" yields 3.3. */
  lemma RawScanFindsEmbeddedValue()
    ensures RawScan("V=3.3!") == Some(3.3)
  {
    EmbeddedValueHelper("V=3.3!");
  }

  lemma SplitOfEmbeddedValue(data: string)
    requires data == "V=3.3!"
    ensures SplitNonNumeric(data) == [[], [], data[2..5]]
  {
    var value := data[2..5];
    PiecesOfEmbeddedValue(data);
    var pieces := NumericPieces(data);
    assert NextSeparator(data, 0) == 0;
    assert pieces[..3] == [[], [], value] && value != [];
    assert DropTrailingEmpty(pieces[..3]) == pieces[..3];
  }

  lemma PiecesOfEmbeddedValue(data: string)
    requires data == "V=3.3!"
    ensures NumericPieces(data) == [[], [], data[2..5], []]
  {
    var value, rest1, rest2 := data[2..5], data[1..], data[2..];
    assert rest1[1..] == rest2 && rest2[..3] == value;
    PiecesAfterValue(rest2);
    assert NextSeparator(rest1, 0) == 0;
    assert NumericPieces(rest1) == [[], value, []];
    assert NextSeparator(data, 0) == 0;
  }

  lemma PiecesAfterValue(rest: string)
    requires rest == "3.3!"
    ensures NumericPieces(rest) == [rest[..3], []]
  {
    assert rest[4..] == [];
    assert NumericPieces([]) == [[]];
    assert NextSeparator(rest, 0) == 3 by {
      assert NextSeparator(rest, 3) == 3;
    }
  }

  lemma AcceptsThreePointThree(token: string)
    requires token == "3.3"
    ensures Accepts(token) && DecimalValue(token) == 3.3
  {
    var a, b := token[..1], token[2..];
    assert token == a + "." + b;
    DecimalTokenOfParts(a, b);
    assert a[..0] == [] && b[..0] == [];
    assert DigitsValue(a) == 3 && DigitsValue(b) == 3 && Pow10(1) == 10;
  }

  // ---------------------------------------------------------------------
  // Line-tagged parsing

  /**
   * One line of the line-tagged branch: `null` changes nothing; armed, a
   * line `parseDouble` accepts is the reading (no range check) and disarms,
   * and any other line keeps the flag armed; not armed, a line containing the
   * marker arms; otherwise a bare number in [0, 5.5] is a reading.
   */
  function LineStep(readingVoltage: bool, received: Option<string>): (r: StepResult)
    ensures received.None? ==> r == StepResult(readingVoltage, None)
    ensures r.reading.Some? ==> !r.readingVoltage
    ensures readingVoltage && received.Some? ==> r.readingVoltage == r.reading.None?
    ensures !readingVoltage && r.reading.Some? ==> InDisplayRange(r.reading.value)
  {
    match received
    case None => StepResult(readingVoltage, None)
    case Some(raw) =>
      var line := Trim(raw);
      if readingVoltage then
        match ParseDouble(line)
        case Some(v) => StepResult(false, Some(v))
        case None => StepResult(true, None)
      else if Contains(line, Marker) then StepResult(true, None)
      else if IsDecimalToken(line) && InDisplayRange(DecimalValue(line)) then StepResult(false, Some(DecimalValue(line)))
      else StepResult(false, None)
  }

  /** Not armed, a line containing the marker arms the flag and yields nothing. */
  lemma MarkerArms(raw: string)
    requires Contains(Trim(raw), Marker)
    ensures LineStep(false, Some(raw)) == StepResult(true, None)
  {
  }

  /**
   * Armed, a number is taken as it is and disarms; a line that is no number
   * yields nothing and the flag stays armed.
   */
  lemma ArmedLine(raw: string)
    ensures ParseDouble(Trim(raw)).Some? ==>
      LineStep(true, Some(raw)) == StepResult(false, Some(ParseDouble(Trim(raw)).value))
    ensures ParseDouble(Trim(raw)).None? ==> LineStep(true, Some(raw)) == StepResult(true, None)
  {
  }

  /** Armed, 9 is passed on although it lies outside [0, 5.5]. */
  lemma ArmedTakesAnyNumber()
    ensures LineStep(true, Some("9")) == StepResult(false, Some(9.0))
  {
    DecimalTokenParses("9");
    TrimUnchanged("9");
  }

  /**
   * Not armed and without the marker, a reading comes exactly from a line
   * that is wholly `\d*\.?\d+` with a value in [0, 5.5]; the flag stays clear.
   */
  lemma FallbackReading(raw: string)
    requires !Contains(Trim(raw), Marker)
    ensures !LineStep(false, Some(raw)).readingVoltage
    ensures LineStep(false, Some(raw)).reading.Some? <==>
      IsDecimalToken(Trim(raw)) && InDisplayRange(DecimalValue(Trim(raw)))
    ensures LineStep(false, Some(raw)).reading.Some? ==>
      LineStep(false, Some(raw)).reading.value == DecimalValue(Trim(raw))
  {
  }

  /** Readings that arrive without the flag armed always lie in [0, 5.5]. */
  lemma UnarmedReadingsInRange(received: Option<string>)
    ensures LineStep(false, received).reading.Some? ==> InDisplayRange(LineStep(false, received).reading.value)
  {
  }

  // ---------------------------------------------------------------------
  // The read loop

  /**
   * What one pass of `while (running.get())` sees: nothing ready, a raw
   * chunk (raw mode), or a line from `readLine`, `None` for `null` (line mode).
   */
  datatype Poll = Quiet | Chunk(data: string) | Line(received: Option<string>)

  /** One pass of the loop: a quiet pass changes nothing, and a raw chunk never touches the flag. */
  function PollStep(readingVoltage: bool, p: Poll): (r: StepResult)
    ensures p.Quiet? ==> r == StepResult(readingVoltage, None)
    ensures p.Chunk? ==> r.readingVoltage == readingVoltage
    ensures p.Chunk? && r.reading.Some? ==> InDisplayRange(r.reading.value)
    ensures p.Line? ==> r == LineStep(readingVoltage, p.received)
  {
    match p
    case Quiet => StepResult(readingVoltage, None)
    case Chunk(data) => StepResult(readingVoltage, RawScan(data))
    case Line(received) => LineStep(readingVoltage, received)
  }

  /** `readingVoltage` after a sequence of passes. */
  function ArmedAfter(readingVoltage: bool, polls: seq<Poll>): bool
    decreases |polls|
  {
    if polls == [] then readingVoltage
    else PollStep(ArmedAfter(readingVoltage, polls[..|polls| - 1]), polls[|polls| - 1]).readingVoltage
  }

  /** The readings passed to `updateUI`, in order. */
  function Readings(readingVoltage: bool, polls: seq<Poll>): seq<real>
    decreases |polls|
  {
    if polls == [] then []
    else
      var prefix := polls[..|polls| - 1];
      Readings(readingVoltage, prefix) + AsSeq(PollStep(ArmedAfter(readingVoltage, prefix), polls[|polls| - 1]).reading)
  }

  /** Raw chunks and quiet passes never touch the flag. */
  lemma {:induction false} RawScanKeepsFlag(readingVoltage: bool, polls: seq<Poll>)
    requires forall i | 0 <= i < |polls| :: !polls[i].Line?
    ensures ArmedAfter(readingVoltage, polls) == readingVoltage
    decreases |polls|
  {
    if polls != [] {
      RawScanKeepsFlag(readingVoltage, polls[..|polls| - 1]);
    }
  }

  /** In raw mode every reading lies in [0, 5.5]. */
  lemma {:induction false} RawReadingsInRange(readingVoltage: bool, polls: seq<Poll>)
    requires forall i | 0 <= i < |polls| :: !polls[i].Line?
    ensures forall i | 0 <= i < |Readings(readingVoltage, polls)| :: InDisplayRange(Readings(readingVoltage, polls)[i])
    decreases |polls|
  {
    if polls != [] {
      RawReadingsInRange(readingVoltage, polls[..|polls| - 1]);
    }
  }

  /** The proof of `TaggedExample`, with the number as a parameter. */
  lemma TaggedLineHelper(number: string)
    requires number == "3.75"
    ensures Readings(false, [Line(Some(Marker)), Line(Some(number))]) == [3.75]
  {
    var polls := [Line(Some(Marker)), Line(Some(number))];
    TrimUnchanged(Marker);
    assert OccursAt(Marker, Marker, 0);
    assert LineStep(false, Some(Marker)) == StepResult(true, None);
    assert polls[..1] == [Line(Some(Marker))] && polls[..1][..0] == [];
    assert ArmedAfter(false, polls[..1]) && Readings(false, polls[..1]) == [];
    ParsesThreeSeventyFive(number);
    assert LineStep(true, Some(number)) == StepResult(false, Some(3.75));
  }

  /** The marker line followed by "3.75" yields the single reading 3.75. */
  lemma TaggedExample()
    ensures Readings(false, [Line(Some(Marker)), Line(Some("3.75"))]) == [3.75]
  {
    TaggedLineHelper("3.75");
  }

  lemma ParsesThreeSeventyFive(token: string)
    requires token == "3.75"
    ensures Trim(token) == token && ParseDouble(token) == Some(3.75)
  {
    TrimUnchanged(token);
    ThreeSeventyFiveIsDecimal(token);
    DecimalTokenParses(token);
  }

  lemma ThreeSeventyFiveIsDecimal(token: string)
    requires token == "3.75"
    ensures IsDecimalToken(token) && DecimalValue(token) == 3.75
  {
    var a, b := token[..1], token[2..];
    assert token == a + "." + b;
    DecimalTokenOfParts(a, b);
    assert DigitsValue(a) == 3 by { assert a[..0] == []; }
    assert DigitsValue(b) == 75 by { assert b[..1][..0] == [] && b[..1] == [b[0]]; }
    assert Pow10(2) == 100;
  }

  /** "4.20" alone, with no marker, yields 4.2. */
  lemma FallbackExample()
    ensures Readings(false, [Line(Some("4.20"))]) == [4.2]
  {
    FallbackLine("4.20");
    assert [Line(Some("4.20"))][..0] == [];
  }

  lemma FallbackLine(line: string)
    requires line == "4.20"
    ensures LineStep(false, Some(line)) == StepResult(false, Some(4.2))
  {
    TrimUnchanged(line);
    FourPointTwenty(line);
    assert |line| < |Marker|;
    assert !Contains(line, Marker);
  }

  lemma FourPointTwenty(token: string)
    requires token == "4.20"
    ensures IsDecimalToken(token) && DecimalValue(token) == 4.2
  {
    var a, b := token[..1], token[2..];
    assert token == a + "." + b;
    DecimalTokenOfParts(a, b);
    assert a[..0] == [] && b[..1] == "2" && "2"[..0] == [];
    assert DigitsValue(a) == 4 && DigitsValue(b) == 20 && Pow10(2) == 100;
  }

  /** One pass's effect on the prefix folds: the readings of `polls[..i + 1]` extend those of `polls[..i]`. */
  lemma ReadingsOfNextPass(readingVoltage: bool, polls: seq<Poll>, i: nat)
    requires i < |polls|
    ensures ArmedAfter(readingVoltage, polls[..i + 1]) ==
      PollStep(ArmedAfter(readingVoltage, polls[..i]), polls[i]).readingVoltage
    ensures Readings(readingVoltage, polls[..i + 1]) ==
      Readings(readingVoltage, polls[..i]) + AsSeq(PollStep(ArmedAfter(readingVoltage, polls[..i]), polls[i]).reading)
  {
    assert polls[..i + 1][..i] == polls[..i];
  }

  /** The line branch of the loop body, as the source writes it. */
  method ParseLine(readingVoltage: bool, received: Option<string>) returns (armed: bool, reading: Option<real>)
    ensures StepResult(armed, reading) == LineStep(readingVoltage, received)
  {
    armed, reading := readingVoltage, None;
    if received.Some? {
      var line := Trim(received.value);
      if readingVoltage {
        var parsed := ParseDouble(line);
        if parsed.Some? {
          armed := false;
          reading := parsed;
        }
      } else if Contains(line, Marker) {
        armed := true;
      } else if IsDecimalToken(line) {
        DecimalTokenParses(line);
        var voltage := ParseDouble(line).value;
        if voltage >= 0.0 && voltage <= 5.5 {
          reading := Some(voltage);
        }
      }
    }
  }

  /** The worker's state: the flag local to the read loop, and the chart it updates. */
  class ReadLoop {
    var readingVoltage: bool
    const display: Display

    ghost predicate Valid()
      reads this, display
    {
      display.Valid()
    }

    constructor (display: Display)
      requires display.Valid()
      ensures Valid() && this.display == display && !readingVoltage
    {
      this.display := display;
      readingVoltage := false;
    }

    /** One pass of the loop up to the call of `updateUI`: the flag moves and at most one reading comes out. */
    method Pass(p: Poll) returns (reading: Option<real>)
      modifies this
      ensures StepResult(readingVoltage, reading) == PollStep(old(readingVoltage), p)
    {
      match p {
        case Quiet =>
          reading := None;
        case Chunk(data) =>
          reading := ScanChunk(data);
        case Line(received) =>
          readingVoltage, reading := ParseLine(readingVoltage, received);
      }
    }

    /** One whole pass: the flag moves and a reading, if any, goes to `updateUI`. */
    method Take(p: Poll) returns (fired: seq<bool>)
      requires Valid()
      modifies this, display
      ensures Valid()
      ensures readingVoltage == PollStep(old(readingVoltage), p).readingVoltage
      ensures display.State() == Feed(old(display.State()), AsSeq(PollStep(old(readingVoltage), p).reading))
      ensures display.indicator == IndicatorAfter(old(display.indicator), AsSeq(PollStep(old(readingVoltage), p).reading))
      ensures fired == SeriesAlerts(old(display.State()), AsSeq(PollStep(old(readingVoltage), p).reading))
    {
      var reading := Pass(p);
      fired := [];
      if reading.Some? {
        var alert := display.UpdateUI(reading.value);
        fired := [alert];
        assert [reading.value][..0] == [];
      }
    }

    /**
     * The loop body run once per pass, for a sequence of passes: each
     * reading goes to `updateUI`, in order, the indicator shows the last
     * one, and the result lists whether each reading raised the alert.
     */
    method Run(polls: seq<Poll>) returns (alerts: seq<bool>)
      requires Valid()
      modifies this, display
      ensures Valid()
      ensures readingVoltage == ArmedAfter(old(readingVoltage), polls)
      ensures display.State() == Feed(old(display.State()), Readings(old(readingVoltage), polls))
      ensures display.indicator == IndicatorAfter(old(display.indicator), Readings(old(readingVoltage), polls))
      ensures alerts == SeriesAlerts(old(display.State()), Readings(old(readingVoltage), polls))
    {
      ghost var armed0, series0, indicator0 := readingVoltage, display.State(), display.indicator;
      ghost var readings: seq<real> := [];
      alerts := [];
      var i := 0;
      assert polls[..0] == [];
      while i < |polls|
        invariant 0 <= i <= |polls|
        invariant display.Valid()
        invariant readingVoltage == ArmedAfter(armed0, polls[..i])
        invariant readings == Readings(armed0, polls[..i])
        invariant display.State() == Feed(series0, readings)
        invariant display.indicator == IndicatorAfter(indicator0, readings)
        invariant alerts == SeriesAlerts(series0, readings)
      {
        ghost var step := PollStep(readingVoltage, polls[i]);
        ReadingsOfNextPass(armed0, polls, i);
        FeedAppend(series0, readings, AsSeq(step.reading));
        SeriesAlertsAppend(series0, readings, AsSeq(step.reading));
        IndicatorAfterAppend(indicator0, readings, AsSeq(step.reading));
        var fired := Take(polls[i]);
        alerts := alerts + fired;
        readings := readings + AsSeq(step.reading);
        i := i + 1;
      }
      assert polls[..|polls|] == polls;
    }
  }

  // ---------------------------------------------------------------------
  // Connection settings

  const DefaultBaudRate: int := 9600

  /**
   * The rate `connectToPort` configures and the text the baud field holds
   * afterwards: the trimmed field parsed as an `int` when that succeeds,
   * otherwise 9600 with the field reset to "9600".
   */
  function BaudRate(field: string): (r: (int, string))
    ensures ParseInt(Trim(field)).Some? ==> r == (ParseInt(Trim(field)).value, field)
    ensures ParseInt(Trim(field)).None? ==> r == (DefaultBaudRate, "9600")
    ensures ParseInt(Trim(r.1)) == Some(r.0)
  {
    match ParseInt(Trim(field))
    case Some(rate) => (rate, field)
    case None =>
      DefaultRateParses("9600");
      (DefaultBaudRate, "9600")
  }

  /** The text the baud field is reset to reads back as the default rate. */
  lemma DefaultRateParses(field: string)
    requires field == "9600"
    ensures ParseInt(Trim(field)) == Some(DefaultBaudRate)
  {
    TrimUnchanged(field);
    assert DigitsValue(field) == 9600 by {
      assert field[..3] == "960" && "960"[..2] == "96" && "96"[..1] == "9" && "9"[..0] == [];
    }
    ParseIntOfSignedDigits([], field);
    assert [] + field == field;
  }

  /** A field holding any 32-bit number written in decimal configures exactly that rate. */
  lemma BaudRateOfTypedNumber(n: int)
    requires IntMin <= n <= IntMax
    ensures BaudRate(IntToString(n)) == (n, IntToString(n))
  {
    var s := IntToString(n);
    var digits := NatToDigits(if n < 0 then -n else n);
    assert s[|s| - 1] == digits[|digits| - 1];
    TrimUnchanged(s);
    ParseIntRoundTrip(n);
  }

  /** A field whose trimmed text holds no digit at all, the empty field included, falls back to 9600. */
  lemma BaudRateFallback(field: string)
    requires forall i | 0 <= i < |Trim(field)| :: !IsDigit(Trim(field)[i])
    ensures BaudRate(field) == (9600, "9600")
  {
    var t := Trim(field);
    if ParseInt(t).Some? {
      ParseIntOnlySignedDigits(t);
      assert false;
    }
  }

  /** The empty field and "fast" both fall back. */
  lemma BaudRateFallbackExamples()
    ensures BaudRate("") == (9600, "9600")
    ensures BaudRate("fast") == (9600, "9600")
  {
    assert Trim("") == [];
    BaudRateFallback("");
    TrimUnchanged("fast");
    BaudRateFallback("fast");
  }

  /** The causes `connectToPort` tells apart when `openPort` fails. */
  datatype OpenFailure = PortInUse | NoPermission | Unexplained

  /** Error code 5 means the port is in use, 13 that permission is missing. */
  function FailureOf(errorCode: int): (f: OpenFailure)
    ensures f == PortInUse <==> errorCode == 5
    ensures f == NoPermission <==> errorCode == 13
  {
    if errorCode == 5 then PortInUse else if errorCode == 13 then NoPermission else Unexplained
  }

  const OpenFailurePrefix: string := "Nu s-a putut deschide portul "
  const InUseHint: string := ". Portul este deja folosit de alt program."
  const PermissionHint: string := ". Nu aveti permisiune(incercati run as administrator)."

  function Hint(f: OpenFailure): string
  {
    match f
    case PortInUse => InUseHint
    case NoPermission => PermissionHint
    case Unexplained => ""
  }

  /** The alert text when the port does not open. */
  function OpenErrorMessage(portName: string, errorCode: int): (m: string)
    ensures |OpenFailurePrefix + portName| <= |m| && m[..|OpenFailurePrefix + portName|] == OpenFailurePrefix + portName
  {
    OpenFailurePrefix + portName + Hint(FailureOf(errorCode))
  }

  /** The message names the cause: two codes give the same message exactly when they have the same cause. */
  lemma OpenErrorMessageNamesCause(portName: string, code1: int, code2: int)
    ensures OpenErrorMessage(portName, code1) == OpenErrorMessage(portName, code2)
        <==> FailureOf(code1) == FailureOf(code2)
  {
    var head := OpenFailurePrefix + portName;
    var m1, m2 := OpenErrorMessage(portName, code1), OpenErrorMessage(portName, code2);
    assert m1[|head|..] == Hint(FailureOf(code1));
    assert m2[|head|..] == Hint(FailureOf(code2));
    assert |InUseHint| != |PermissionHint|;
  }
}

=== FILE: ports.dfy ===
/**
 * The port selector's entries: each shows `systemName - description`, and
 * connecting takes the text before the first " - " as the system name.
 */
module Ports {
  import opened Options
  import opened JavaText

  const LabelSeparator: string := " - "

  /** The entry `updatePortList` adds for one port: the name, then " - " right after it. */
  function PortLabel(systemName: string, description: string): (entry: string)
    ensures |entry| == |systemName| + |LabelSeparator| + |description|
    ensures entry[..|systemName|] == systemName
    ensures OccursAt(entry, LabelSeparator, |systemName|)
    ensures entry[|systemName| + |LabelSeparator|..] == description
  {
    systemName + LabelSeparator + description
  }

  /**
   * `entry.split(" - ")[0]`. `None` stands for the
   * ArrayIndexOutOfBoundsException Java raises when every piece is empty
   * and `split` returns no pieces at all.
   */
  function PortName(entry: string): (r: Option<string>)
    ensures r.Some? ==> |r.value| <= |entry| && r.value == entry[..|r.value|]
    ensures r.Some? ==> !Contains(r.value, LabelSeparator)
    ensures r.None? ==> Contains(entry, LabelSeparator)
    ensures IndexOf(entry, LabelSeparator) < 0 ==> r == Some(entry)
    ensures r.Some? && IndexOf(entry, LabelSeparator) >= 0 ==> |r.value| == IndexOf(entry, LabelSeparator)
    ensures IndexOf(entry, LabelSeparator) != 0 ==> r.Some?
    ensures r.None? <==> IndexOf(entry, LabelSeparator) == 0 && AllEmpty(Pieces(entry, LabelSeparator))
  {
    var pieces := SplitLiteral(entry, LabelSeparator);
    NameMissingExactly(entry);
    if |pieces| == 0 then None
    else
      assert IndexOf(entry, LabelSeparator) >= 0 ==> pieces[0] == Pieces(entry, LabelSeparator)[0];
      Some(pieces[0])
  }

  /** Every piece is empty. */
  predicate AllEmpty(ps: seq<string>)
  {
    forall k | 0 <= k < |ps| :: ps[k] == []
  }

  /**
   * `split` returns no pieces exactly when " - " occurs and every piece is
   * empty, which needs the entry to start with " - ". The empty entry has
   * no occurrence and comes back whole, as `[""]`.
   */
  lemma NameMissingExactly(entry: string)
    ensures |SplitLiteral(entry, LabelSeparator)| == 0 <==>
      IndexOf(entry, LabelSeparator) >= 0 && AllEmpty(Pieces(entry, LabelSeparator))
    ensures |SplitLiteral(entry, LabelSeparator)| == 0 ==> IndexOf(entry, LabelSeparator) == 0
  {
    var ps := Pieces(entry, LabelSeparator);
    if IndexOf(entry, LabelSeparator) < 0 {
      assert SplitLiteral(entry, LabelSeparator) == [entry];
    } else {
      assert SplitLiteral(entry, LabelSeparator) == DropTrailingEmpty(ps);
      DropsToNothingExactly(ps);
      if AllEmpty(ps) {
        assert ps[0] == [];
      }
    }
  }

  /** Dropping trailing empty pieces leaves nothing exactly when every piece is empty. */
  lemma DropsToNothingExactly(ps: seq<string>)
    ensures DropTrailingEmpty(ps) == [] <==> AllEmpty(ps)
  {
    var r := DropTrailingEmpty(ps);
    if r != [] {
      assert ps[|r| - 1] == r[|r| - 1] != [];
    }
  }

  /**
   * The name is recovered from its label whenever it is not empty and no
   * " - " occurs in it or across its end. A name ending in " -" does not
   * come back: its label holds " - " one position early.
   */
  lemma PortLabelRoundTrip(systemName: string, description: string)
    requires systemName != [] && !Contains(systemName + " ", LabelSeparator)
    ensures PortName(PortLabel(systemName, description)) == Some(systemName)
  {
    var entry := PortLabel(systemName, description);
    var n := |systemName|;
    assert OccursAt(entry, LabelSeparator, n) by {
      assert entry[n..n + 3] == LabelSeparator;
    }
    forall j | 0 <= j < n ensures !OccursAt(entry, LabelSeparator, j) {
      NoSeparatorInsideName(systemName, description, j);
    }
    var i := IndexOf(entry, LabelSeparator);
    assert i == n;
    var pieces := Pieces(entry, LabelSeparator);
    assert pieces[0] == entry[..n] == systemName;
    DropTrailingEmptyKeepsHead(pieces);
  }

  lemma NoSeparatorInsideName(systemName: string, description: string, j: nat)
    requires j < |systemName| && !Contains(systemName + " ", LabelSeparator)
    ensures !OccursAt(PortLabel(systemName, description), LabelSeparator, j)
  {
    var entry := PortLabel(systemName, description);
    var n := |systemName|;
    if j + 3 <= n + 1 {
      assert entry[j..j + 3] == (systemName + " ")[j..j + 3];
      assert !OccursAt(systemName + " ", LabelSeparator, j);
    } else {
      assert entry[j + 1] == ' ';
      assert j + 3 <= |entry| ==> entry[j..j + 3][1] == ' ';
    }
  }

  /** A system name ending in " -" is cut short: "COM7 -" comes back as "COM7". */
  lemma NameEndingInDashIsCut()
    ensures PortName(PortLabel("COM7 -", "USB")) == Some("COM7")
  {
    var entry := PortLabel("COM7 -", "USB");
    assert OccursAt(entry, LabelSeparator, 4) by {
      assert entry[4..7] == LabelSeparator;
    }
    forall j | 0 <= j < 4 ensures !OccursAt(entry, LabelSeparator, j) {
      assert entry[j..j + 3][0] == entry[j] != ' ';
    }
    assert IndexOf(entry, LabelSeparator) == 4;
    var pieces := Pieces(entry, LabelSeparator);
    assert pieces[0] == entry[..4] == "COM7";
    DropTrailingEmptyKeepsHead(pieces);
  }

  /** An empty name with an empty description makes the label " - ", on which the lookup throws. */
  lemma EmptyLabelThrows()
    ensures PortName(PortLabel("", "")) == None
  {
    var entry := PortLabel("", "");
    assert OccursAt(entry, LabelSeparator, 0);
    assert IndexOf(entry, LabelSeparator) == 0;
    assert entry[3..] == [];
    assert IndexOf([], LabelSeparator) == -1;
    assert Pieces(entry, LabelSeparator) == [[], []];
  }

  /** What the connect button does with the selector's value. */
  datatype Selection = Connect(portName: string) | NoPortSelected | LabelHasNoName

  /** `toggleConnection` when not running: a `null` value is reported, otherwise the name is taken from the label. */
  function SelectPort(selected: Option<string>): (r: Selection)
    ensures selected.None? <==> r.NoPortSelected?
    ensures r.Connect? ==> selected.Some? && PortName(selected.value) == Some(r.portName)
    ensures r.LabelHasNoName? ==> selected.Some? && PortName(selected.value).None?
  {
    match selected
    case None => NoPortSelected
    case Some(entry) =>
      match PortName(entry)
      case Some(name) => Connect(name)
      case None => LabelHasNoName
  }
}

=== FILE: voltage_series.dfy ===
/**
 * `updateUI`, identical in both applications: the chart's series of
 * `(x, voltage)` points bounded to 100 entries, the status indicator, and
 * the overvoltage alert shown only when the reading crosses 4.0 V.
 */
module VoltageSeries {

  /** THRESHOLD_VOLTAGE. */
  const Threshold: real := 4.0
  /** MAX_DATA_POINTS. */
  const MaxDataPoints: nat := 100

  datatype Point = Point(x: int, y: real)

  /** The colours `updateUI` paints; `Idle` is whatever was there before the first reading. */
  datatype Indicator = Idle | Green | Red

  /** The series' points and the counter `xSeriesData` that numbers the next one. */
  datatype Series = Series(points: seq<Point>, nextX: int)

  const Empty: Series := Series([], 0)

  /** At most 100 points, whose x values run consecutively up to `nextX - 1`. */
  predicate WellFormed(s: Series)
  {
    && |s.points| <= MaxDataPoints
    && forall i | 0 <= i < |s.points| :: s.points[i].x == s.nextX - |s.points| + i
  }

  /** The append of `(xSeriesData++, v)` followed by the removal of index 0 when over 100. */
  function Push(s: Series, v: real): (r: Series)
    ensures r.nextX == s.nextX + 1
    ensures |s.points| < MaxDataPoints ==> r.points == s.points + [Point(s.nextX, v)]
    ensures |s.points| >= MaxDataPoints ==> r.points == s.points[1..] + [Point(s.nextX, v)]
    ensures WellFormed(s) ==> WellFormed(r)
  {
    var added := s.points + [Point(s.nextX, v)];
    assert |s.points| >= MaxDataPoints ==> added[1..] == s.points[1..] + [Point(s.nextX, v)];
    Series(if |added| > MaxDataPoints then added[1..] else added, s.nextX + 1)
  }

  /** The colour painted for a reading: red above the threshold, green otherwise. */
  function IndicatorFor(v: real): (i: Indicator)
    ensures i != Idle
    ensures i == Red <==> v > Threshold
  {
    if v > Threshold then Red else Green
  }

  /**
   * The source's alert test, read on the series after the push: the reading
   * is above the threshold and the series holds at most one point or the
   * point before the new one is at or below the threshold.
   */
  predicate AlertAfterPush(after: Series, v: real)
    ensures AlertAfterPush(after, v) ==> v > Threshold
  {
    v > Threshold && (|after.points| <= 1 || after.points[|after.points| - 2].y <= Threshold)
  }

  /** The one bit the alert depends on: the newest point is above the threshold. */
  predicate WasAbove(s: Series)
  {
    |s.points| > 0 && s.points[|s.points| - 1].y > Threshold
  }

  /**
   * The list-based test only ever looks at the previous newest point, even
   * when the push evicted the oldest one: an alert fires exactly on a
   * crossing from at-or-below to above.
   */
  lemma AlertIsCrossing(s: Series, v: real)
    ensures AlertAfterPush(Push(s, v), v) <==> v > Threshold && !WasAbove(s)
    ensures WasAbove(Push(s, v)) <==> v > Threshold
  {
    var r := Push(s, v);
    if |s.points| > 0 {
      assert r.points[|r.points| - 2] == s.points[|s.points| - 1];
    }
  }

  /** The threshold monitor with one bit of memory: alert on a rise above, remember whether above. */
  function MonitorStep(wasAbove: bool, v: real): (step: (bool, bool))
    ensures step.0 ==> step.1
    ensures step.1 <==> v > Threshold
    ensures step.0 <==> v > Threshold && !wasAbove
  {
    (v > Threshold && !wasAbove, v > Threshold)
  }

  /** The series after a stream of readings, one `Push` each. */
  function Feed(s: Series, vs: seq<real>): (r: Series)
    ensures r.nextX == s.nextX + |vs|
    ensures WellFormed(s) ==> WellFormed(r)
    decreases |vs|
  {
    if vs == [] then s else Push(Feed(s, vs[..|vs| - 1]), vs[|vs| - 1])
  }

  /** Whether each reading of the stream raised the alert, by the source's test. */
  function SeriesAlerts(s: Series, vs: seq<real>): (alerts: seq<bool>)
    ensures |alerts| == |vs|
    decreases |vs|
  {
    if vs == [] then []
    else
      var v := vs[|vs| - 1];
      SeriesAlerts(s, vs[..|vs| - 1]) + [AlertAfterPush(Push(Feed(s, vs[..|vs| - 1]), v), v)]
  }

  /** The monitor's bit after a stream of readings. */
  function MonitorAbove(wasAbove: bool, vs: seq<real>): bool
    decreases |vs|
  {
    if vs == [] then wasAbove else MonitorStep(MonitorAbove(wasAbove, vs[..|vs| - 1]), vs[|vs| - 1]).1
  }

  /** The monitor's alerts over a stream of readings. */
  function MonitorAlerts(wasAbove: bool, vs: seq<real>): (alerts: seq<bool>)
    ensures |alerts| == |vs|
    decreases |vs|
  {
    if vs == [] then []
    else
      var prefix := vs[..|vs| - 1];
      MonitorAlerts(wasAbove, prefix) + [MonitorStep(MonitorAbove(wasAbove, prefix), vs[|vs| - 1]).0]
  }

  /** Over any stream, the list-based alert equals the one-bit monitor's. */
  lemma {:induction false} SeriesAlertsAreMonitorAlerts(s: Series, vs: seq<real>)
    ensures SeriesAlerts(s, vs) == MonitorAlerts(WasAbove(s), vs)
    ensures WasAbove(Feed(s, vs)) == MonitorAbove(WasAbove(s), vs)
    decreases |vs|
  {
    if vs != [] {
      var prefix := vs[..|vs| - 1];
      SeriesAlertsAreMonitorAlerts(s, prefix);
      AlertIsCrossing(Feed(s, prefix), vs[|vs| - 1]);
    }
  }

  /** One more reading: one more push, and one more alert by the source's test. */
  lemma FeedOfNextReading(s: Series, vs: seq<real>, v: real)
    ensures Feed(s, vs + [v]) == Push(Feed(s, vs), v)
    ensures SeriesAlerts(s, vs + [v]) == SeriesAlerts(s, vs) + [AlertAfterPush(Push(Feed(s, vs), v), v)]
  {
    assert (vs + [v])[..|vs|] == vs;
  }

  /** Feeding two streams one after the other is feeding their concatenation. */
  lemma {:induction false} FeedAppend(s: Series, vs: seq<real>, ws: seq<real>)
    ensures Feed(s, vs + ws) == Feed(Feed(s, vs), ws)
    decreases |ws|
  {
    if ws == [] {
      assert vs + ws == vs;
    } else {
      var init, w := ws[..|ws| - 1], ws[|ws| - 1];
      FeedAppend(s, vs, init);
      assert (vs + ws)[..|vs + ws| - 1] == vs + init;
    }
  }

  /** The alerts over a concatenation are those of the first stream, then those of the second on the fed series. */
  lemma {:induction false} SeriesAlertsAppend(s: Series, vs: seq<real>, ws: seq<real>)
    ensures SeriesAlerts(s, vs + ws) == SeriesAlerts(s, vs) + SeriesAlerts(Feed(s, vs), ws)
    decreases |ws|
  {
    if ws == [] {
      assert vs + ws == vs;
    } else {
      var init, w := ws[..|ws| - 1], ws[|ws| - 1];
      SeriesAlertsAppend(s, vs, init);
      FeedAppend(s, vs, init);
      var t := Feed(s, vs + init);
      assert t == Feed(Feed(s, vs), init);
      var last := [AlertAfterPush(Push(t, w), w)];
      assert SeriesAlerts(Feed(s, vs), ws) == SeriesAlerts(Feed(s, vs), init) + last;
      assert (vs + ws)[..|vs + ws| - 1] == vs + init;
      assert SeriesAlerts(s, vs + ws) == SeriesAlerts(s, vs + init) + last;
    }
  }

  /** The first alert depends only on the starting bit and the first reading. */
  lemma {:induction false} FirstMonitorAlert(wasAbove: bool, vs: seq<real>)
    requires vs != []
    ensures MonitorAlerts(wasAbove, vs)[0] == MonitorStep(wasAbove, vs[0]).0
    decreases |vs|
  {
    if |vs| > 1 {
      var prefix := vs[..|vs| - 1];
      FirstMonitorAlert(wasAbove, prefix);
    } else {
      assert vs[..0] == [];
    }
  }

  /**
   * A run of readings all above the threshold raises exactly one alert, at
   * its start, when entered from at or below the threshold, and none when
   * entered from above.
   */
  lemma {:induction false} OneAlertPerRun(wasAbove: bool, vs: seq<real>)
    requires forall i | 0 <= i < |vs| :: vs[i] > Threshold
    ensures forall i | 0 < i < |vs| :: !MonitorAlerts(wasAbove, vs)[i]
    ensures wasAbove ==> forall i | 0 <= i < |vs| :: !MonitorAlerts(wasAbove, vs)[i]
    ensures !wasAbove && vs != [] ==> MonitorAlerts(wasAbove, vs)[0]
    decreases |vs|
  {
    if vs != [] {
      FirstMonitorAlert(wasAbove, vs);
      var prefix := vs[..|vs| - 1];
      OneAlertPerRun(wasAbove, prefix);
      assert prefix != [] ==> MonitorAbove(wasAbove, prefix) by {
        if prefix != [] { assert prefix[|prefix| - 1] == vs[|vs| - 2]; }
      }
    }
  }

  /** One more reading, for the one-bit monitor. */
  lemma MonitorOfNextReading(wasAbove: bool, vs: seq<real>, v: real)
    ensures MonitorAbove(wasAbove, vs + [v]) == MonitorStep(MonitorAbove(wasAbove, vs), v).1
    ensures MonitorAlerts(wasAbove, vs + [v]) == MonitorAlerts(wasAbove, vs) + [MonitorStep(MonitorAbove(wasAbove, vs), v).0]
  {
    assert (vs + [v])[..|vs|] == vs;
  }

  /** The readings [3.0, 4.5, 4.8, 3.9, 4.2] alert at 4.5 and at 4.2 only. */
  lemma CrossingExample()
    ensures SeriesAlerts(Empty, [3.0, 4.5, 4.8, 3.9, 4.2]) == [false, true, false, false, true]
  {
    SeriesAlertsAreMonitorAlerts(Empty, [3.0, 4.5, 4.8, 3.9, 4.2]);
    MonitorOfNextReading(false, [], 3.0);
    assert [] + [3.0] == [3.0];
    MonitorOfNextReading(false, [3.0], 4.5);
    assert [3.0] + [4.5] == [3.0, 4.5];
    MonitorOfNextReading(false, [3.0, 4.5], 4.8);
    assert [3.0, 4.5] + [4.8] == [3.0, 4.5, 4.8];
    MonitorOfNextReading(false, [3.0, 4.5, 4.8], 3.9);
    assert [3.0, 4.5, 4.8] + [3.9] == [3.0, 4.5, 4.8, 3.9];
    MonitorOfNextReading(false, [3.0, 4.5, 4.8, 3.9], 4.2);
    assert [3.0, 4.5, 4.8, 3.9] + [4.2] == [3.0, 4.5, 4.8, 3.9, 4.2];
  }

  /** The y values of a list of points. */
  function Ys(ps: seq<Point>): (ys: seq<real>)
    ensures |ys| == |ps| && forall i | 0 <= i < |ps| :: ys[i] == ps[i].y
  {
    seq(|ps|, i requires 0 <= i < |ps| => ps[i].y)
  }

  /** The last `n` elements of `a`, or all of them when there are fewer. */
  function LastN(a: seq<real>, n: nat): seq<real>
  {
    if |a| <= n then a else a[|a| - n..]
  }

  lemma LastNOfAppend(a: seq<real>, v: real, n: nat)
    requires n > 0
    ensures LastN(LastN(a, n) + [v], n) == LastN(a + [v], n)
  {
    if |a| > n {
      assert LastN(a, n) + [v] == a[|a| - n..] + [v];
      assert (a[|a| - n..] + [v])[1..] == (a + [v])[|a| + 1 - n..];
    }
  }

  /**
   * Feeding a well-formed series keeps exactly the last 100 of all the
   * readings it has seen, in their original order.
   */
  lemma {:induction false} FeedKeepsLastReadings(s: Series, vs: seq<real>)
    requires WellFormed(s)
    ensures Ys(Feed(s, vs).points) == LastN(Ys(s.points) + vs, MaxDataPoints)
    decreases |vs|
  {
    if vs != [] {
      var prefix, v := vs[..|vs| - 1], vs[|vs| - 1];
      FeedKeepsLastReadings(s, prefix);
      var all := Ys(s.points) + prefix;
      PushKeepsLast(Feed(s, prefix), v);
      LastNOfAppend(all, v, MaxDataPoints);
      assert all + [v] == Ys(s.points) + vs;
    }
  }

  lemma PushKeepsLast(t: Series, v: real)
    requires WellFormed(t)
    ensures Ys(Push(t, v).points) == LastN(Ys(t.points) + [v], MaxDataPoints)
  {
    assert Ys(Push(t, v).points) == Ys(t.points) + [v] || Ys(Push(t, v).points) == Ys(t.points)[1..] + [v];
  }

  /** 105 readings into an empty series leave the last 100, in order. */
  lemma HundredAndFiveReadings(vs: seq<real>)
    requires |vs| == 105
    ensures Ys(Feed(Empty, vs).points) == vs[5..]
  {
    FeedKeepsLastReadings(Empty, vs);
    assert Ys(Empty.points) + vs == vs;
  }

  /** The indicator after a stream of readings: painted for the last one, untouched when there is none. */
  function IndicatorAfter(before: Indicator, vs: seq<real>): Indicator
  {
    if vs == [] then before else IndicatorFor(vs[|vs| - 1])
  }

  /** Painting for two streams in turn is painting for their concatenation. */
  lemma IndicatorAfterAppend(before: Indicator, vs: seq<real>, ws: seq<real>)
    ensures IndicatorAfter(before, vs + ws) == IndicatorAfter(IndicatorAfter(before, vs), ws)
  {
    if ws == [] {
      assert vs + ws == vs;
    } else {
      assert (vs + ws)[|vs + ws| - 1] == ws[|ws| - 1];
    }
  }

  /** The chart state `updateUI` changes, as an object updated in place. */
  class Display {
    var points: seq<Point>
    var xSeriesData: int
    var indicator: Indicator

    function State(): Series
      reads this
    {
      Series(points, xSeriesData)
    }

    ghost predicate Valid()
      reads this
    {
      WellFormed(State())
    }

    constructor ()
      ensures Valid() && State() == Empty && indicator == Idle
    {
      points := [];
      xSeriesData := 0;
      indicator := Idle;
    }

    /** One reading: push it, paint the indicator, and report whether the alert is shown. */
    method UpdateUI(voltage: real) returns (alert: bool)
      requires Valid()
      modifies this
      ensures Valid()
      ensures State() == Push(old(State()), voltage)
      ensures indicator == IndicatorFor(voltage)
      ensures alert == AlertAfterPush(State(), voltage)
      ensures alert <==> voltage > Threshold && !WasAbove(old(State()))
    {
      ghost var before := State();
      points := points + [Point(xSeriesData, voltage)];
      xSeriesData := xSeriesData + 1;
      if |points| > MaxDataPoints {
        points := points[1..];
      }
      if voltage > Threshold {
        indicator := Red;
        alert := |points| <= 1 || (|points| > 1 && points[|points| - 2].y <= Threshold);
      } else {
        indicator := Green;
        alert := false;
      }
      AlertIsCrossing(before, voltage);
    }
  }
}
